=== FILE: README.md ===
# Delivery admin dashboard — a Dafny model

This project models the logic at the core of a Django admin dashboard. The dashboard manages drivers, customers, vehicles and orders that live in a hosted document store (Firestore). The model covers four parts:

- **The Firestore service layer** (`FirebaseService`). Its list reads inject the document key as `id` and fail soft to `[]`. Its by-key reads return `None` for a missing document. Its writes report success as a flag. It also computes the driver and customer statistics.
- **The dashboard views** (`Views`):
  - the home page counters, including the offline count clamped at zero;
  - the online counter of the driver list;
  - the driver detail page, which picks the first vehicle whose `userID` names the driver;
  - the vehicle status classifier (Pending Approval / Approved / Active);
  - the request checks of the AJAX status-update and delete endpoints.
- **Bulk mailing** (`Mailing`):
  - who receives mail (customers or drivers with a truthy email, in order);
  - how many `send_mail` calls are made;
  - what the page or the JSON reply reports.
- **The `sync_firebase_data` management command** (`SyncCommand`, built on the generic `Mirror` table):
  - mapping documents to relational rows, with their defaults and the geo-position extraction;
  - `update_or_create` keyed on the Firebase document id;
  - the success and error tallies of each loop;
  - the order lookups;
  - the `--model` / `--direction` / `--dry-run` dispatch of `handle`.

Modules, one per file:

- `Basics`: `Option`, `Count` and decimal rendering.
- `Values`: dynamic document values, Python truthiness, `dict.get`, `str()` and `float()`.
- `DocStore`: the store. Collections are sequences in stream order. Every request can fault: `Disconnected` stands for a client that could not be created, and `down` names collections on which requests raise.
- `FirebaseService`, `Views`, `Mailing`.
- `Mirror`: the relational tables, `update_or_create`, `objects.get`, and the per-document loop `Fold`.
- `SyncCommand`.

Outside collaborators are parameters:

- outgoing mail: `Mailing.Mailer`;
- the ORM's validation of a row, `save_to_firebase`, and `float()` of a string: the oracles in `SyncCommand.Env`;
- `timezone.now()` and the parsing of a stored `dateCreated`: the run's `SyncCommand.Clock`, carried in `Env`;
- the key the store generates for a new document: `newId`;
- where the connection of the lazily consumed `Drivers` stream breaks: `Env.driversCut`.

The service methods for customers and vehicles (`get_all_customers`, `get_vehicle_by_id`, `update_vehicle`, …) are the driver methods with another collection name. They are modelled once, with the collection as a parameter.

Points where the model follows the code rather than what the code's comments or names suggest:

- **Statistics never return `{}`.** `get_drivers_stats` and `get_customers_stats` catch exceptions and return `{}`. That branch cannot be reached, because `get_all_drivers` / `get_all_customers` never raise: they return `[]` on every fault. With no connection the statistics are therefore all zero, and `DriversStats` / `CustomersStats` state that.
- **A `GeoPoint` loses its coordinates in the sync.** The command reads coordinates only from a non-empty dict. A `geoPosition` stored as a Firestore `GeoPoint` therefore syncs with no coordinates (`GeoOf`).
- **A broken drivers pull keeps what it wrote.** The drivers loop consumes the `Drivers` stream lazily, outside its per-document `try`. A connection that breaks part way raises `CommandError` after the rows of the documents already yielded were written (`DriversBreakKeepsWrittenRows`). The customers and orders pulls read their whole stream first, so for them a break is the same as a fault at the start.
- **A `None` key deletes nothing, successfully.** The client gives a `None` document key a fresh random key, so `delete_driver(None)` reports success and reads by a `None` key find nothing (`DeleteRecord`).
- **A path-like key fails.** The client turns a key into a path below the collection. An empty key, or one such as `x/y` that would address something other than a document of the collection, is refused. The view then reports "Failed to delete driver" (`DeleteRecord`, `DeleteEndpoint`).
- **Customer and order faults are swallowed only in a real pull.** A failing `Customers` or `Orders` stream gives a count of 0 in a real pull. In a dry run the same fault fails the whole command, because the dry-run counters have no handler (`FailsOn`).

## Model

| member | source | states |
|---|---|---|
| FirebaseService.ListRecords | app/firebase_service.py:267-290 | With no client or a faulting stream the list is empty; otherwise there is one record per document in stream order, whose `id` is the document key and whose other fields are the document's |
| FirebaseService.RecordById | app/firebase_service.py:292-305 | A record is returned exactly when the store is reachable, the key is a valid string key (non-empty, no `/`) and the document exists; its `id` is the key and its other fields are the stored ones |
| FirebaseService.DriverDocuments | app/firebase_service.py:439-449 | Found exactly when the driver's `DriversDocuments` document can be read, and then it is the stored document as it is, with no injected `id`; the by-key read of the same key is it with `id` added |
| FirebaseService.UpdateRecord | app/firebase_service.py:307-315 | Succeeds exactly when the update is not empty (an empty one raises `ValueError`) and the document can be read (a missing document raises `NotFound`); on failure the store is unchanged |
| FirebaseService.CreateRecord | app/firebase_service.py:317-324 | Returns the new key exactly when the collection is reachable and the key is free; the generated key is always a valid key; on failure the store is unchanged |
| FirebaseService.DeleteRecord | app/firebase_service.py:326-333 | Succeeds exactly when the collection is reachable and the key is a valid string key or `None`, even for an absent document; a string key that is empty or contains `/` fails; a `None` key names a freshly generated document, so the store is unchanged; on failure the store is unchanged |
| FirebaseService.ListAgreesWithById | app/firebase_service.py:267-305 | Reading any listed record back by its `id` gives the same record |
| FirebaseService.CreateThenRead | app/firebase_service.py:317-324 | After a successful create, reading the new key gives the data plus its `id`; every other key of the collection reads as before, and every other collection lists and reads as before |
| FirebaseService.UpdateThenRead | app/firebase_service.py:307-315 | An update of an existing, validly keyed document with a non-empty update succeeds; reading the key then gives the old fields overwritten by the update's fields; every other key of the collection reads as before, and every other collection lists and reads as before |
| FirebaseService.DeleteThenRead | app/firebase_service.py:326-333 | After a delete the key reads as absent and every other key reads as before; every other collection lists and reads as before |
| FirebaseService.WritesPreserveValid | app/firebase_service.py:307-333 | Update, create and delete keep document keys unique and valid in every collection |
| FirebaseService.StatsOf | app/firebase_service.py:408-420 | active counts drivers whose status is 'active' and inactive the rest; approved counts truthy `isApproved` and pending the rest; drivers lacking `isApproved` are pending |
| FirebaseService.DriversStats | app/firebase_service.py:405-423 | With the `Drivers` collection unreachable all counters are zero; otherwise the total is the number of driver documents |
| FirebaseService.OnlineFlagIrrelevant | app/firebase_service.py:410-412 | Drivers differing only in `isDriverOnline` give identical statistics |
| FirebaseService.CustomersStats | app/firebase_service.py:425-436 | The customer total is the number of customer documents, or zero when unreachable |
| Views.Offline | app/views.py:42 | The offline count is never negative, is at least total − active, and is either 0 or total − active |
| Views.Home | app/views.py:34-66 | Total drivers = number of driver records; active, pending and approved count the drivers with status 'active', without and with a truthy `isApproved`; offline = total − active = drivers whose status is not 'active'; total customers = number of customer records |
| Views.DriversManagement | app/views.py:69-82 | The online counter never exceeds the driver count, and online + offline drivers = driver count |
| Views.DriverDetail | app/views.py:100-131 | A missing driver redirects with "Driver not found"; the page renders exactly when the driver exists and the vehicle query succeeds, and then shows the driver, their documents, and the first vehicle in stream order whose `userID` is the driver key, or none when no vehicle has it |
| Views.FirstMatchIsFirstOwned | app/views.py:113-119 | The equality query's first hit is the first owned vehicle, and it is empty exactly when no vehicle is owned |
| Views.DriverName | app/views.py:428 | 'Unknown Driver' without a driver, 'Unknown Driver' when both names are missing, `first + ' ' + last` for string names |
| Views.ProcessVehicle | app/views.py:426-440 | The row keeps the vehicle's fields, adds `driver_name` and `driver_id`, and is Pending Approval iff not approved, Active iff approved with a present, online driver, Approved otherwise |
| Views.ClassifyVehicles | app/views.py:425-442 | Each vehicle is classified as above; each counter counts the rows carrying its status, and the three counters sum to the number of vehicles |
| Views.VehicleManagement | app/views.py:416-461 | One classified row per vehicle record; each counter counts the rows carrying its status and the three sum to the number of rows; an empty page when the collection is unreachable |
| Views.UpdateStatusEndpoint | app/views.py:152-171 | The update is called exactly for a POST with a dict body, a truthy id and a non-null status (`false` is accepted), with `{'isApproved': status}`; success iff the document exists; the fixed error texts otherwise |
| Views.DeleteEndpoint | app/views.py:173-191 | The delete is called exactly for a POST with a dict body and a truthy id; success iff the collection is reachable and the id is a valid string key, so an id such as `x/y` is reported as a failure; "… ID is required" for a missing id |
| Basics.DecimalValue | app/views_mailing.py:32 | The count in "Email sent to N customers." reads back as N: the digits `Decimal` renders denote the number |
| Mailing.Recipients | app/views_mailing.py:19 | There is one recipient per record with a truthy email, and every recipient is truthy |
| Mailing.RecipientsAppend | app/views_mailing.py:19 | Recipient selection keeps record order: the recipients of a concatenation are the concatenated recipients |
| Mailing.CustomerMailing | app/views_mailing.py:11-37 | The total counts customers with an email; no send without a POST or without recipients; one single-recipient send per email, in order, stopping at the first failure; success iff all sends succeed, reporting the count |
| Mailing.DriverMailing | app/views_mailing.py:39-62 | The total counts drivers with an email; exactly one send, addressed to all driver emails; success iff that send succeeds |
| Mailing.FailureReasons | app/views_mailing.py:73-85 | Every outcome is either a success or one reported error |
| Mailing.CustomerMailingAjax | app/views_mailing.py:64-89 | One send per recipient regardless of failures; sent = number of successes, errors = failure texts in order, and sent + number of errors = total |
| Mirror.UpsertSpec | app/management/commands/sync_firebase_data.py:201-217 | On a table with one row per key, `update_or_create` succeeds, keeps keys unique, stores the row under its key and leaves every other key alone |
| Mirror.UpsertRows | app/management/commands/sync_firebase_data.py:201-217 | Every row after the upsert is an old row or the upserted one |
| Mirror.UpsertSame | app/management/commands/sync_firebase_data.py:201-217 | Upserting the row a key already holds changes nothing |
| Mirror.Fold | app/management/commands/sync_firebase_data.py:165-232 | Every document is counted either as synced or as an error, and a failing document does not stop the loop |
| Mirror.FoldPreserves | app/management/commands/sync_firebase_data.py:168-232 | A table property kept by each successful step holds after the loop |
| Mirror.FoldCountBound | app/management/commands/sync_firebase_data.py:331-374 | A loop whose step only succeeds on documents satisfying a property counts at most that many documents |
| Mirror.FoldWithoutRows | app/management/commands/sync_firebase_data.py:331-378 | A loop in which no document yields a row writes nothing and counts nothing |
| Mirror.UpsertFoldCount | app/management/commands/sync_firebase_data.py:165-239 | The upsert loop keeps keys unique and counts exactly the documents whose row the ORM accepts |
| Mirror.UpsertFoldKeepsKeys | app/management/commands/sync_firebase_data.py:201-217 | The upsert loop never loses a key |
| Mirror.UpsertFoldLookup | app/management/commands/sync_firebase_data.py:168-224 | After the loop each key holds its document's row if that row was accepted, and otherwise what it held before |
| Mirror.UpsertFoldIdempotent | app/management/commands/sync_firebase_data.py:201-203 | Re-running the loop over unchanged documents with the same row mapping leaves the mirror as the first run left it |
| Mirror.FoldAgrees | app/management/commands/sync_firebase_data.py:168-232 | Two row mappings that agree on every document give the same loop result |
| Mirror.Resolve | app/management/commands/sync_firebase_data.py:341-356 | `objects.get` gives `DoesNotExist` iff no row matches, `MultipleObjectsReturned` iff two or more match, and otherwise a matching row |
| SyncCommand.GeoOf | app/management/commands/sync_firebase_data.py:193-198 | The coordinates are those of `geoPosition` when it is a dict (an empty dict gives `None`/`None` either way), and `None`/`None` for any other value |
| SyncCommand.DriverRowOf | app/management/commands/sync_firebase_data.py:201-216 | Each `defaults` field is the document's field when present, otherwise its default: `drivers_id` the document key; names, email, phone and token ''; `profile_pic` `None`; `is_approved` and `is_driver_online` false. `is_approved` is therefore truthy exactly when the dashboard counts the driver as approved; the coordinates are `GeoOf` of the document and `date_created` is its `StampOf` under the run's clock |
| SyncCommand.CustomerRowOf | app/management/commands/sync_firebase_data.py:287-301 | Each `defaults` field is the document's field when present, otherwise its default: `customer_id` the document key; names, email, phone and token ''; `profile_pic` `None`. The coordinates are `GeoOf` of the document and `date_created` is its `StampOf` under the run's clock |
| SyncCommand.SyncDriversFromFirebase | app/management/commands/sync_firebase_data.py:159-239 | Raises exactly when the `Drivers` stream cannot be opened or breaks part way; an unopened stream writes nothing; synced + errors = number of documents yielded, which is all of them when nothing raises |
| SyncCommand.DriversYield | app/management/commands/sync_firebase_data.py:163-168 | The lazily consumed stream yields a prefix of the documents: none when it cannot be opened, the first `k` when it breaks after `k`, all of them otherwise |
| SyncCommand.SyncDriversFromFirebaseSpec | app/management/commands/sync_firebase_data.py:159-239 | Whether or not the stream raised, the pulled driver mirror keeps one row per document, counts the accepted yielded documents, and holds each accepted yielded document's row under its key |
| SyncCommand.SyncDriversIdempotent | app/management/commands/sync_firebase_data.py:201-203 | Pulling drivers twice with unchanged documents and the same clock gives the mirror of the first pull |
| SyncCommand.SyncDriversRepullStable | app/management/commands/sync_firebase_data.py:172-217 | Pulling drivers again at any later time gives the mirror of the first pull when every document has its own parsable `dateCreated` |
| SyncCommand.DriversRepullRestamps | app/management/commands/sync_firebase_data.py:172-175 | A driver without `dateCreated` pulled again a tick later gets a new `date_created`, so the re-pull changes the mirror |
| SyncCommand.SyncCustomersFromFirebase | app/management/commands/sync_firebase_data.py:241-315 | Only a missing client raises; a faulting `Customers` stream returns 0 and writes nothing; otherwise synced + errors = number of documents, so an empty stream returns 0 |
| SyncCommand.SyncCustomersFromFirebaseSpec | app/management/commands/sync_firebase_data.py:256-315 | The pulled customer mirror keeps one row per document, counts the accepted documents, and holds each accepted document's row under its key |
| SyncCommand.SyncCustomersIdempotent | app/management/commands/sync_firebase_data.py:287-289 | Pulling customers twice with unchanged documents and the same clock gives the mirror of the first pull |
| SyncCommand.SyncCustomersRepullStable | app/management/commands/sync_firebase_data.py:261-301 | Pulling customers again at any later time gives the mirror of the first pull when every document has its own parsable `dateCreated` |
| SyncCommand.OrderRowOf | app/management/commands/sync_firebase_data.py:356-373 | Given the resolved customer and driver lookups, an order yields a row exactly when the customer resolved to one row, the driver did not resolve to several rows, and `float(fare)` succeeds. The row's customer is the key that the customer lookup resolved to. Its driver is the key the driver lookup resolved to, or none when the lookup matched nothing. The addresses default to '', the coordinates to `None`, `status` to 'pending', and `fare` is `float()` of the stored fare or of 0 |
| SyncCommand.OrderRowLinks | app/management/commands/sync_firebase_data.py:336-363 | With the lookups run over the mirror: the order's row exists exactly when `customerId` names exactly one customer row (by Firebase id or customer id), `driverId` names at most one driver row, and the fare parses. The row links only mirror rows: a customer row with that Firebase id that the order's `customerId` names, and a driver row that its `driverId` names. The driver is absent exactly when no driver row matched |
| SyncCommand.SyncOrdersFromFirebase | app/management/commands/sync_firebase_data.py:317-380 | Only a missing client raises; a faulting `Orders` stream returns 0 and writes nothing; otherwise synced + skipped = number of documents, so an empty stream returns 0 |
| SyncCommand.OrdersNeedCustomer | app/management/commands/sync_firebase_data.py:337-374 | No more orders are counted than have a resolvable customer; with no customers mirrored none are |
| SyncCommand.SyncOrdersKeepsMirrorSound | app/management/commands/sync_firebase_data.py:358-373 | Pulling orders keeps one row per order and every order pointing at mirrored customer and driver rows |
| SyncCommand.SyncOrdersAsWritten | app/management/commands/sync_firebase_data.py:317-380 | The order sync as written: only a missing client raises, and every document of a readable stream is counted as synced or as skipped |
| SyncCommand.OrdersAsWrittenSyncNothing | app/management/commands/sync_firebase_data.py:340-356 | As written, the order sync never writes an order and always reports 0 |
| SyncCommand.OrdersAsWrittenDropsLinkedOrder | app/management/commands/sync_firebase_data.py:340-347 | For an order naming the one mirrored customer, the code as written counts 0 while the corrected lookup counts 1 |
| SyncCommand.PushAll | app/management/commands/sync_firebase_data.py:382-395 | One push per mirror row; the count is the number of successful pushes, and every other row is reported as failed |
| SyncCommand.SyncDriversPhase | app/management/commands/sync_firebase_data.py:77-99 | Pull then push as the direction asks, fails exactly when a pull meets a `Drivers` stream that raises at its start or part way, reports its planned lines with the dry-run flag, writes only the driver table and never in a dry run; a real pull installs the rows of the documents yielded, so a break part way keeps the rows written before it |
| SyncCommand.SyncCustomersPhase | app/management/commands/sync_firebase_data.py:101-123 | Pull then push as the direction asks, fails only on a faulting `Customers` stream in a dry-run pull, and writes only the customer table, never in a dry run |
| SyncCommand.SyncOrdersPhase | app/management/commands/sync_firebase_data.py:125-136 | Does nothing for 'to_firebase', fails only on a faulting `Orders` stream in a dry run, and writes only the order table; the real pull is the corrected `SyncOrdersFromFirebase`, not the as-written one that writes nothing |
| SyncCommand.Handle | app/management/commands/sync_firebase_data.py:37-64 | The run, composed with the corrected order pull, fails exactly on the faults `FailsOn` lists; a failed run leaves the customer and order tables unchanged; a dry run or a pure push leaves the mirror unchanged; models not selected keep their tables |
| SyncCommand.HandleReports | app/management/commands/sync_firebase_data.py:49-56 | A successful run reports drivers, then customers, then orders, each when selected and in the selected directions; a failed run reports a prefix of that |
| SyncCommand.HandleReportsDryRun | app/management/commands/sync_firebase_data.py:81-99 | Every reported line carries the run's dry-run flag |
| SyncCommand.HandleKeepsMirrorSound | app/management/commands/sync_firebase_data.py:37-64 | Whatever the options and faults, a run with the corrected order pull keeps one row per Firebase document and every order pointing at mirrored rows |
| SyncCommand.HandleDryRunCounts | app/management/commands/sync_firebase_data.py:138-157 | A dry run of everything in both directions reports the size of each collection and of each pushable table, and changes nothing |
| SyncCommand.HandleDriversPull | app/management/commands/sync_firebase_data.py:79-85 | Pulling drivers alone fails exactly when the stream raises and then reports nothing, otherwise reports the number of accepted documents; it touches only the driver table and, either way, leaves each key holding the row of its yielded document |
| SyncCommand.DriversBreakKeepsWrittenRows | app/management/commands/sync_firebase_data.py:163-168 | A `Drivers` stream that breaks after the first of two documents ends the run in `CommandError` with the first driver's row already written |
| SyncCommand.HandleDriversPush | app/management/commands/sync_firebase_data.py:90-96 | Pushing drivers alone leaves the mirror unchanged and reports the number of successful pushes |

## Left out

- The Firestore client, the Django ORM, `send_mail`, template rendering, `JsonResponse` and JSON body parsing are I/O or foreign libraries. The store is `DocStore`; the rest are oracles or plain datatypes.
- Document keys generated by `add` are a parameter (`newId`), because the generator is random.
- `datetime.fromisoformat` and the timestamp conversion are library date handling, modelled by the oracle `Clock.parseDate`. `date_created` is a `Stamp`: the parsed moment, or the run's `Clock.now`. Stored timestamp values are not part of the value model. For them the driver loop's parser would raise a `TypeError` that its narrow handler does not catch; the model does not represent that path.
- `SyncCommand.Clock`: one `now` per run stands for `timezone.now()`, which the source reads afresh for each document, so two undated documents of one run get the same time in the model.
- SyncCommand.SyncDriversIdempotent, SyncCommand.SyncCustomersIdempotent and Mirror.UpsertFoldIdempotent hold only for the same clock. A later re-pull re-stamps every document without its own parsable `dateCreated` (`DriversRepullRestamps`); only the `…RepullStable` lemmas speak of a later run.
- SyncCommand.Handle, SyncCommand.SyncOrdersPhase and SyncCommand.HandleKeepsMirrorSound compose the corrected order pull. The command as written reports 0 orders and writes none (see Findings: `SyncOrdersAsWritten`).
- Mirror.UpsertFoldCount, SyncCommand.SyncDriversFromFirebaseSpec and SyncCommand.SyncCustomersFromFirebaseSpec take the ORM's verdict on a row (`Env.acceptDriver`, `acceptCustomer`, `acceptOrder`) as a function of that row alone. A verdict that depends on the rest of the table, such as a unique-constraint clash with another row, is not represented, and the exact counts and the idempotence lemmas rely on this.
- FirebaseService.UpdateRecord treats every key of the update as a top-level field name. The client reads a key containing `.` as a path into nested maps; the only update the views issue is `{'isApproved': …}`, which has no such key.
- DocStore.ValidKey treats every string key containing `/` as refused. A key with an even number of `/` separators, such as `a/b/c`, names a document of a sub-collection, which the client accepts: reading it finds nothing and deleting it succeeds. Sub-collections are not modelled, so for such keys the model reports a failed delete where the client reports success.
- `SyncCommand.NamesCustomer` and `SyncCommand.NamesDriver` match a non-string `customerId` / `driverId` against the stored `customer_id` / `drivers_id` only, never against Firebase ids. Django would coerce such a value to text first.
- `save_to_firebase` is a method of the `Driver` / `Customer` models, which are not part of this model. Only its success or failure is modelled, through the push oracles. Its effect on the store is not.
- The `created` flag, log lines, `stdout` messages and the "Completed with N errors" warning are output only.
- `_test_firebase_connection` lists the store's collections. It is modelled only as "no client → the run fails".
- `Values.PyStr` renders floats, lists, dicts and geo points as fixed placeholders, because exact float formatting is out of scope. This reaches the driver detail title and `driver_name` only for non-string names.
- `Views.DriverName` is stated for a missing driver, for both names missing, and for both names being strings. Mixed cases (one name missing, or a non-string name) follow the same code but are not spelled out in the contract.
- The text of a caught exception is not tracked: `Views.Message.Raised` and `Mailing.SendResult.Failed` carry only what precedes it, or an oracle-given reason.
- The `except` branches of `home`, `drivers_management` and `vehicle_management` that render empty pages are not modelled. Nothing inside those `try` blocks can raise, because the service methods fail soft.
- The `subject`, `message` and sender of a mail are not modelled; the recipients and the call sequence are. `time.sleep` is not modelled.
- `customers_management`, `customer_detail` and the REST API views (`drivers_list_api` and the others) are left out. They are thin listings and wrappers outside the modelled core.
- `app/admin.py`, `app/urls.py`, `app/firebase_config.py`, `app/views_faqs.py` and `app/management/commands/sync_drivers.py` are left out. They are thin wrappers, a routing table, credential loading, calls to service methods that do not exist, and calls to model methods that are not part of this model.
- The commented-out code at app/firebase_service.py:1-249 and app/views.py:16-32 is not modelled.

## Findings

| source | as written | input that shows it | evidently intended | confidence | as-written member | corrected member |
|---|---|---|---|---|---|---|
| app/management/commands/sync_firebase_data.py:342-354 | The customer and driver lookups call `models.Q(...)`, but `models` is never imported (line 8 imports only `Driver`, `Customer` and `DeliveryOrder`). Every order with a truthy `customerId` or `driverId` raises `NameError`, which the handler at line 376 swallows. No order is ever synced and the count is always 0. | An `Orders` document `o1` with `customerId: "c1"`, while the customer mirror holds exactly the customer `c1` | Resolve the customer, and the optional driver, by Firebase id or stored id; skip the order when the customer is missing or ambiguous; upsert it otherwise | high; not executed | SyncCommand.OrdersAsWrittenDropsLinkedOrder | SyncCommand.SyncOrdersFromFirebase |

=== FILE: basics.dfy ===
/** Small shared vocabulary: an optional value, counting over sequences,
    and the decimal rendering of natural numbers. */
module Basics {

  datatype Option<+T> = None | Some(value: T)

  /** Number of elements of `s` that satisfy `p`, counted from the front. */
  function Count<T>(s: seq<T>, p: T -> bool): (n: nat)
    ensures n <= |s|
    decreases |s|
  {
    if |s| == 0 then 0
    else
      var rest := Count(s[..|s| - 1], p);
      rest + (if p(s[|s| - 1]) then 1 else 0)
  }

  /** Counting one more element at the end adds one exactly when it qualifies. */
  lemma CountSnoc<T>(s: seq<T>, x: T, p: T -> bool)
    ensures Count(s + [x], p) == Count(s, p) + (if p(x) then 1 else 0)
  {
    assert (s + [x])[..|s|] == s;
  }

  /** Counting distributes over concatenation. */
  lemma {:induction false} CountAppend<T>(a: seq<T>, b: seq<T>, p: T -> bool)
    ensures Count(a + b, p) == Count(a, p) + Count(b, p)
    decreases |b|
  {
    if |b| == 0 {
      assert a + b == a;
    } else {
      var b' := b[..|b| - 1];
      var x := b[|b| - 1];
      assert b == b' + [x];
      assert a + b == (a + b') + [x];
      CountAppend(a, b', p);
      CountSnoc(a + b', x, p);
      CountSnoc(b', x, p);
    }
  }

  /** Elements that satisfy `p` and elements that satisfy its complement
      `q` together account for the whole sequence. */
  lemma {:induction false} CountComplement<T>(s: seq<T>, p: T -> bool, q: T -> bool)
    requires forall i :: 0 <= i < |s| ==> q(s[i]) == !p(s[i])
    ensures Count(s, p) + Count(s, q) == |s|
    decreases |s|
  {
    if |s| > 0 {
      var s' := s[..|s| - 1];
      assert forall i :: 0 <= i < |s'| ==> s'[i] == s[i];
      CountComplement(s', p, q);
    }
  }

  /** Two pointwise-equivalent countings agree. */
  lemma {:induction false} CountCongruent<T, U>(a: seq<T>, b: seq<U>, p: T -> bool, q: U -> bool)
    requires |a| == |b|
    requires forall i :: 0 <= i < |a| ==> p(a[i]) == q(b[i])
    ensures Count(a, p) == Count(b, q)
    decreases |a|
  {
    if |a| > 0 {
      var a', b' := a[..|a| - 1], b[..|b| - 1];
      assert forall i :: 0 <= i < |a'| ==> a'[i] == a[i] && b'[i] == b[i];
      CountCongruent(a', b', p, q);
    }
  }

  /** Counting is monotone in the predicate. */
  lemma {:induction false} CountMonotone<T>(s: seq<T>, p: T -> bool, q: T -> bool)
    requires forall i :: 0 <= i < |s| ==> p(s[i]) ==> q(s[i])
    ensures Count(s, p) <= Count(s, q)
    decreases |s|
  {
    if |s| > 0 {
      var s' := s[..|s| - 1];
      assert forall i :: 0 <= i < |s'| ==> s'[i] == s[i];
      CountMonotone(s', p, q);
    }
  }

  /** Python's `str()` of a non-negative integer. */
  function Decimal(n: nat): (r: string)
    ensures |r| > 0
    ensures forall i :: 0 <= i < |r| ==> '0' <= r[i] <= '9'
    ensures n > 0 ==> r[0] != '0'
    decreases n
  {
    var d := [('0' as int + n % 10) as char];
    if n < 10 then d else Decimal(n / 10) + d
  }

  /** The number a string of decimal digits denotes, most significant digit
      first. */
  function DigitsValue(s: string): int
    decreases |s|
  {
    if |s| == 0 then 0
    else DigitsValue(s[..|s| - 1]) * 10 + (s[|s| - 1] as int - '0' as int)
  }

  /** `Decimal` renders the number it is given: reading its digits back
      yields `n`. */
  lemma {:induction false} DecimalValue(n: nat)
    ensures DigitsValue(Decimal(n)) == n
    decreases n
  {
    var d := [('0' as int + n % 10) as char];
    if n < 10 {
      assert Decimal(n) == d;
      assert d[..0] == [];
    } else {
      DecimalValue(n / 10);
      var s := Decimal(n / 10) + d;
      assert Decimal(n) == s;
      assert s[..|s| - 1] == Decimal(n / 10);
    }
  }
}

=== FILE: doc_store.dfy ===
/** The hosted document store as the service sees it: named collections of
    documents, streamed in a fixed order, with every request able to fail.

    `Db` is the service's connection handle. `Disconnected` is the state
    after the client could not be created (the service's `db` is `None`);
    `down` names the collections on which every request raises, which is
    how the model represents network and permission faults. */
module DocStore {
  import opened Basics
  import opened Values

  /** One streamed document: its key and its contents. */
  datatype Snapshot = Snapshot(id: string, data: Doc)

  /** A collection in stream order. */
  type Collection = seq<Snapshot>

  datatype Store = Store(collections: map<string, Collection>)

  datatype Db = Disconnected | Connected(store: Store, down: set<string>)

  /** Outcome of one store request: a value, or a raised exception. */
  datatype Fetch<+T> = Fetched(value: T) | Fault

  /** A collection that was never written to streams as empty. */
  function Docs(s: Store, c: string): Collection {
    if c in s.collections then s.collections[c] else []
  }

  /** Document keys are unique within a collection. */
  ghost predicate DistinctIds(docs: Collection) {
    forall i, j :: 0 <= i < j < |docs| ==> docs[i].id != docs[j].id
  }

  /** A key the client can turn into a document of the collection: one
      non-empty path segment. A key containing '/' would address a path
      below the collection rather than one of its documents, and the client
      refuses it. */
  predicate ValidKey(id: string) {
    |id| > 0 && '/' !in id
  }

  /** The keys the store generates for new documents are always valid. */
  type Key = id: string | ValidKey(id) witness "k"

  /** Document keys are unique within a collection, and every stored key
      is one the client can address. */
  ghost predicate Valid(s: Store) {
    forall c :: c in s.collections ==>
      && DistinctIds(s.collections[c])
      && forall i :: 0 <= i < |s.collections[c]| ==> ValidKey(s.collections[c][i].id)
  }

  predicate Reachable(db: Db, c: string) {
    db.Connected? && c !in db.down
  }

  /** Position of the first document with key `id`. */
  function IndexOf(docs: Collection, id: string): (r: Option<nat>)
    ensures r.Some? ==> r.value < |docs| && docs[r.value].id == id
    ensures r.Some? ==> forall j :: 0 <= j < r.value ==> docs[j].id != id
    ensures r.None? ==> forall j :: 0 <= j < |docs| ==> docs[j].id != id
    decreases |docs|
  {
    if |docs| == 0 then None
    else if docs[0].id == id then Some(0)
    else match IndexOf(docs[1..], id)
      case None => None
      case Some(k) => Some(k + 1)
  }

  /** With unique keys, the document at `i` is the one found by its key. */
  lemma IndexOfDistinct(docs: Collection, i: nat)
    requires DistinctIds(docs)
    requires i < |docs|
    ensures IndexOf(docs, docs[i].id) == Some(i)
  {
  }

  /** Streaming a whole collection, in stream order. */
  function Stream(db: Db, c: string): Fetch<Collection> {
    if Reachable(db, c) then Fetched(Docs(db.store, c)) else Fault
  }

  /** A `None` key makes the client generate a fresh random key, which
      names no stored document; any other key that is not a valid string
      key makes the client raise. */
  predicate FreshKey(key: Value) {
    key.VNull?
  }

  /** Reading one document by key: the contents when the document
      exists; a fresh key reads as absent. */
  function Lookup(db: Db, c: string, key: Value): Fetch<Option<Doc>> {
    if !Reachable(db, c) then Fault
    else if FreshKey(key) then Fetched(None)
    else if !key.VStr? || !ValidKey(key.s) then Fault
    else match IndexOf(Docs(db.store, c), key.s)
      case None => Fetched(None)
      case Some(i) => Fetched(Some(Docs(db.store, c)[i].data))
  }

  /** Documents whose `field` is present and equal to `v`, in stream order. */
  function Matching(docs: Collection, field: string, v: Value): (r: Collection)
    ensures |r| <= |docs|
    decreases |docs|
  {
    if |docs| == 0 then []
    else
      (if field in docs[0].data && docs[0].data[field] == v then [docs[0]] else [])
      + Matching(docs[1..], field, v)
  }

  /** An equality query: the documents whose `field` equals `v`, in stream order. */
  function Where(db: Db, c: string, field: string, v: Value): Fetch<Collection> {
    if Reachable(db, c) then Fetched(Matching(Docs(db.store, c), field, v)) else Fault
  }

  function WithCollection(db: Db, c: string, docs: Collection): Db
    requires db.Connected?
  {
    Connected(Store(db.store.collections[c := docs]), db.down)
  }

  /** Updating a document: merges the given top-level fields into an
      existing document. An empty update is refused with `ValueError`
      before any request; a missing document, a fresh key among them,
      raises `NotFound`. */
  function Update(db: Db, c: string, key: Value, data: Doc): Fetch<Db> {
    if |data| == 0 || !Reachable(db, c) || !key.VStr? || !ValidKey(key.s) then Fault
    else
      var docs := Docs(db.store, c);
      match IndexOf(docs, key.s)
      case None => Fault
      case Some(i) => Fetched(WithCollection(db, c, docs[i := Snapshot(key.s, docs[i].data + data)]))
  }

  /** Adding a document to a collection. The generated key is the parameter
      `newId`; a key that is already taken raises `AlreadyExists`. */
  function Add(db: Db, c: string, newId: Key, data: Doc): Fetch<Db> {
    if !Reachable(db, c) then Fault
    else
      var docs := Docs(db.store, c);
      if IndexOf(docs, newId).Some? then Fault
      else Fetched(WithCollection(db, c, docs + [Snapshot(newId, data)]))
  }

  /** The collection without the documents keyed `id`. */
  function Without(docs: Collection, id: string): (r: Collection)
    ensures |r| <= |docs|
    ensures forall j :: 0 <= j < |r| ==> r[j].id != id
    ensures forall j :: 0 <= j < |r| ==> r[j] in docs
    ensures forall j :: 0 <= j < |docs| && docs[j].id != id ==> docs[j] in r
    decreases |docs|
  {
    if |docs| == 0 then []
    else (if docs[0].id == id then [] else [docs[0]]) + Without(docs[1..], id)
  }

  /** Deleting a document: deleting an absent document succeeds, so a
      fresh key deletes nothing and succeeds too; a key that is not a
      valid string key raises. */
  function Remove(db: Db, c: string, key: Value): Fetch<Db> {
    if !Reachable(db, c) then Fault
    else if FreshKey(key) then Fetched(db)
    else if !key.VStr? || !ValidKey(key.s) then Fault
    else Fetched(WithCollection(db, c, Without(Docs(db.store, c), key.s)))
  }
}

=== FILE: firebase_service.dfy ===
/** The dashboard's data service: per-collection readers that inject each
    document's key as an `id` field, writes that report a success flag,
    and the two dashboard aggregators.

    Every operation is fail soft: a missing connection or a raised store
    request turns into an empty list, `None`, `False`, or zero counts, and
    never propagates to the caller. */
module FirebaseService {
  import opened Basics
  import opened Values
  import opened DocStore

  const DriversCollection := "Drivers"
  const CustomersCollection := "Customers"
  const VehiclesCollection := "VehicleDetails"
  const DocumentsCollection := "DriversDocuments"

  /** Injecting the document key as the `id` field; the key overrides any stored `id`. */
  function WithId(data: Doc, id: string): Doc {
    data["id" := VStr(id)]
  }

  /** `get_all_drivers` / `get_all_customers` / `get_all_vehicles`. */
  function ListRecords(db: Db, c: string): (r: seq<Doc>)
    ensures !Reachable(db, c) ==> r == []
    ensures Reachable(db, c) ==> |r| == |Docs(db.store, c)|
    ensures Reachable(db, c) ==> forall i :: 0 <= i < |r| ==>
      && Get(r[i], "id") == VStr(Docs(db.store, c)[i].id)
      && r[i] - {"id"} == Docs(db.store, c)[i].data - {"id"}
  {
    match Stream(db, c)
    case Fault => []
    case Fetched(docs) => seq(|docs|, i requires 0 <= i < |docs| => WithId(docs[i].data, docs[i].id))
  }

  /** `get_driver_by_id` / `get_customer_by_id` / `get_vehicle_by_id`. */
  function RecordById(db: Db, c: string, key: Value): (r: Option<Doc>)
    ensures r.Some? <==> Reachable(db, c) && key.VStr? && ValidKey(key.s) && IndexOf(Docs(db.store, c), key.s).Some?
    ensures r.Some? ==> Get(r.value, "id") == key
    ensures r.Some? ==>
      r.value - {"id"} == Docs(db.store, c)[IndexOf(Docs(db.store, c), key.s).value].data - {"id"}
  {
    match Lookup(db, c, key)
    case Fetched(Some(data)) => Some(WithId(data, key.s))
    case _ => None
  }

  /** `get_driver_documents`: the stored contents as they are, without an
      injected `id`. */
  function DriverDocuments(db: Db, key: Value): (r: Option<Doc>)
    ensures r.Some? <==> RecordById(db, DocumentsCollection, key).Some?
    ensures r.Some? ==> r.value - {"id"} == RecordById(db, DocumentsCollection, key).value - {"id"}
    ensures r.Some? ==>
      && IndexOf(Docs(db.store, DocumentsCollection), key.s).Some?
      && r.value == Docs(db.store, DocumentsCollection)[IndexOf(Docs(db.store, DocumentsCollection), key.s).value].data
    ensures r.Some? ==> RecordById(db, DocumentsCollection, key) == Some(WithId(r.value, key.s))
  {
    match Lookup(db, DocumentsCollection, key)
    case Fetched(Some(data)) => Some(data)
    case _ => None
  }

  /** Result of a write: the success flag and the connection afterwards. */
  datatype Written = Written(ok: bool, db: Db)

  /** `update_driver` / `update_customer` / `update_vehicle`: an empty
      update fails even on an existing record. */
  function UpdateRecord(db: Db, c: string, key: Value, data: Doc): (r: Written)
    ensures r.ok <==> |data| > 0 && RecordById(db, c, key).Some?
    ensures !r.ok ==> r.db == db
  {
    match Update(db, c, key, data)
    case Fetched(db') => Written(true, db')
    case Fault => Written(false, db)
  }

  /** Result of `create_*`: the generated key, or `None` on failure. */
  datatype Created = Created(id: Option<string>, db: Db)

  /** `create_driver` / `create_customer`; `newId` is the key the store
      generates. */
  function CreateRecord(db: Db, c: string, newId: Key, data: Doc): (r: Created)
    ensures r.id.Some? <==> Reachable(db, c) && RecordById(db, c, VStr(newId)).None?
    ensures r.id.Some? ==> r.id.value == newId
    ensures r.id.None? ==> r.db == db
  {
    match Add(db, c, newId, data)
    case Fetched(db') => Created(Some(newId), db')
    case Fault => Created(None, db)
  }

  /** `delete_driver` / `delete_customer` / `delete_vehicle`: a `None` key
      deletes a freshly generated, absent document, so it reports success
      and changes nothing; a string that is not a valid key fails. */
  function DeleteRecord(db: Db, c: string, key: Value): (r: Written)
    ensures r.ok <==> Reachable(db, c) && ((key.VStr? && ValidKey(key.s)) || FreshKey(key))
    ensures FreshKey(key) ==> r.db == db
    ensures !r.ok ==> r.db == db
  {
    match Remove(db, c, key)
    case Fetched(db') => Written(true, db')
    case Fault => Written(false, db)
  }

  /** Every record of a listing is the record read back by its own `id`. */
  lemma ListAgreesWithById(db: Db, c: string, i: nat)
    requires db.Connected? && Valid(db.store)
    requires i < |ListRecords(db, c)|
    ensures RecordById(db, c, Get(ListRecords(db, c)[i], "id")) == Some(ListRecords(db, c)[i])
  {
    var docs := Docs(db.store, c);
    assert c in db.store.collections ==> DistinctIds(docs) && ValidKey(docs[i].id);
    IndexOfDistinct(docs, i);
  }

  /** Creating a record and reading it back yields the input plus the
      generated key as `id`; every other record, in this collection and in
      the others, reads as before. */
  lemma CreateThenRead(db: Db, c: string, newId: Key, data: Doc)
    requires CreateRecord(db, c, newId, data).id.Some?
    ensures RecordById(CreateRecord(db, c, newId, data).db, c, VStr(newId)) == Some(WithId(data, newId))
    ensures forall k :: k != VStr(newId) ==>
      RecordById(CreateRecord(db, c, newId, data).db, c, k) == RecordById(db, c, k)
    ensures OthersUnchanged(db, CreateRecord(db, c, newId, data).db, c)
  {
    var docs := Docs(db.store, c);
    var docs' := docs + [Snapshot(newId, data)];
    var db' := CreateRecord(db, c, newId, data).db;
    assert db' == WithCollection(db, c, docs');
    WriteFrame(db, c, docs');
    assert Docs(db'.store, c) == docs';
    assert IndexOf(docs', newId) == Some(|docs|) by {
      IndexOfAppend(docs, Snapshot(newId, data));
    }
    forall k | k != VStr(newId)
      ensures RecordById(db', c, k) == RecordById(db, c, k)
    {
      if k.VStr? {
        IndexOfAppendOther(docs, Snapshot(newId, data), k.s);
      }
    }
  }

  /** A write to collection `c` leaves every other collection as it was,
      both for listings and for reads by key. */
  ghost predicate OthersUnchanged(db: Db, db': Db, c: string) {
    && (forall c' :: c' != c ==> ListRecords(db', c') == ListRecords(db, c'))
    && (forall c', k :: c' != c ==> RecordById(db', c', k) == RecordById(db, c', k))
  }

  /** Replacing one collection leaves the others as they were. */
  lemma WriteFrame(db: Db, c: string, docs: Collection)
    requires db.Connected?
    ensures OthersUnchanged(db, WithCollection(db, c, docs), c)
  {
    var db' := WithCollection(db, c, docs);
    forall c' | c' != c
      ensures Docs(db'.store, c') == Docs(db.store, c')
      ensures Reachable(db', c') == Reachable(db, c')
    {
    }
  }

  /** Appending a document leaves where every other key is found. */
  lemma {:induction false} IndexOfAppendOther(docs: Collection, s: Snapshot, k: string)
    requires k != s.id
    ensures IndexOf(docs + [s], k) == IndexOf(docs, k)
    decreases |docs|
  {
    if |docs| > 0 {
      assert (docs + [s])[1..] == docs[1..] + [s];
      IndexOfAppendOther(docs[1..], s, k);
    }
  }

  /** Appending after documents that do not carry the key finds the new one. */
  lemma {:induction false} IndexOfAppend(docs: Collection, s: Snapshot)
    requires IndexOf(docs, s.id).None?
    ensures IndexOf(docs + [s], s.id) == Some(|docs|)
    decreases |docs|
  {
    if |docs| > 0 {
      assert (docs + [s])[1..] == docs[1..] + [s];
      IndexOfAppend(docs[1..], s);
    }
  }

  /** A successful update is visible to the next read: the fields written
      replace the old ones, and the key is still injected as `id`; every
      other record, in this collection and in the others, reads as before.
      The requirement is the success condition of `UpdateRecord` spelled
      out on the store: the collection answers, the key is valid and names
      a document, and the update is not empty. */
  lemma UpdateThenRead(db: Db, c: string, id: string, data: Doc)
    requires Reachable(db, c) && ValidKey(id) && IndexOf(Docs(db.store, c), id).Some? && |data| > 0
    ensures UpdateRecord(db, c, VStr(id), data).ok
    ensures RecordById(db, c, VStr(id)).Some?
    ensures RecordById(UpdateRecord(db, c, VStr(id), data).db, c, VStr(id))
         == Some(WithId(RecordById(db, c, VStr(id)).value + data, id))
    ensures forall k :: k != VStr(id) ==>
      RecordById(UpdateRecord(db, c, VStr(id), data).db, c, k) == RecordById(db, c, k)
    ensures OthersUnchanged(db, UpdateRecord(db, c, VStr(id), data).db, c)
  {
    var docs := Docs(db.store, c);
    var i := IndexOf(docs, id).value;
    var s := Snapshot(id, docs[i].data + data);
    var db' := UpdateRecord(db, c, VStr(id), data).db;
    assert db' == WithCollection(db, c, docs[i := s]);
    WriteFrame(db, c, docs[i := s]);
    assert Docs(db'.store, c) == docs[i := s];
    IndexOfReplace(docs, i, s);
    assert WithId(docs[i].data + data, id) == WithId(WithId(docs[i].data, id) + data, id);
    forall k | k != VStr(id)
      ensures RecordById(db', c, k) == RecordById(db, c, k)
    {
      if k.VStr? {
        IndexOfReplaceOther(docs, i, s, k.s);
      }
    }
  }

  /** Replacing the first document with a key by one with the same key keeps
      it the first. */
  lemma {:induction false} IndexOfReplace(docs: Collection, i: nat, s: Snapshot)
    requires IndexOf(docs, s.id) == Some(i)
    ensures IndexOf(docs[i := s], s.id) == Some(i)
    decreases |docs|
  {
    if i > 0 {
      assert docs[i := s][1..] == docs[1..][i - 1 := s];
      IndexOfReplace(docs[1..], i - 1, s);
    }
  }

  /** Replacing a document by one with the same key leaves where every
      other key is found, and what is found there. */
  lemma {:induction false} IndexOfReplaceOther(docs: Collection, i: nat, s: Snapshot, k: string)
    requires i < |docs| && docs[i].id == s.id && k != s.id
    ensures IndexOf(docs[i := s], k) == IndexOf(docs, k)
    ensures IndexOf(docs, k).Some? ==> docs[i := s][IndexOf(docs, k).value] == docs[IndexOf(docs, k).value]
    decreases |docs|
  {
    if i > 0 {
      assert docs[i := s][1..] == docs[1..][i - 1 := s];
      IndexOfReplaceOther(docs[1..], i - 1, s, k);
    }
  }

  /** After a successful delete the record reads as absent, and every other
      record, in this collection and in the others, reads as before. */
  lemma DeleteThenRead(db: Db, c: string, id: string, other: Value)
    requires DeleteRecord(db, c, VStr(id)).ok
    requires other != VStr(id)
    ensures RecordById(DeleteRecord(db, c, VStr(id)).db, c, VStr(id)).None?
    ensures RecordById(DeleteRecord(db, c, VStr(id)).db, c, other) == RecordById(db, c, other)
    ensures OthersUnchanged(db, DeleteRecord(db, c, VStr(id)).db, c)
  {
    var docs := Docs(db.store, c);
    var docs' := Without(docs, id);
    assert DeleteRecord(db, c, VStr(id)).db == WithCollection(db, c, docs');
    WriteFrame(db, c, docs');
    assert Docs(DeleteRecord(db, c, VStr(id)).db.store, c) == docs';
    if other.VStr? {
      WithoutKeepsOthers(docs, id, other.s);
    }
  }

  /** Removing one key leaves the first document of every other key. */
  lemma {:induction false} WithoutKeepsOthers(docs: Collection, id: string, k: string)
    requires k != id
    ensures IndexOf(docs, k).None? ==> IndexOf(Without(docs, id), k).None?
    ensures IndexOf(docs, k).Some? ==>
      && IndexOf(Without(docs, id), k).Some?
      && Without(docs, id)[IndexOf(Without(docs, id), k).value] == docs[IndexOf(docs, k).value]
    decreases |docs|
  {
    if |docs| > 0 {
      var rest := Without(docs[1..], id);
      if docs[0].id == id {
        WithoutKeepsOthers(docs[1..], id, k);
        assert Without(docs, id) == rest;
      } else if docs[0].id == k {
        assert Without(docs, id) == [docs[0]] + rest;
      } else {
        WithoutKeepsOthers(docs[1..], id, k);
        assert Without(docs, id) == [docs[0]] + rest;
        assert Without(docs, id)[1..] == rest;
      }
    }
  }

  /** Writes keep document keys unique and valid within each collection. */
  lemma WritesPreserveValid(db: Db, c: string, key: Value, data: Doc, newId: Key)
    requires db.Connected? && Valid(db.store)
    ensures UpdateRecord(db, c, key, data).db.Connected?
    ensures Valid(UpdateRecord(db, c, key, data).db.store)
    ensures Valid(CreateRecord(db, c, newId, data).db.store)
    ensures Valid(DeleteRecord(db, c, key).db.store)
  {
    var docs := Docs(db.store, c);
    assert c in db.store.collections ==> DistinctIds(db.store.collections[c]);
    assert c in db.store.collections ==> forall i :: 0 <= i < |docs| ==> ValidKey(docs[i].id);
    if UpdateRecord(db, c, key, data).ok {
      var i := IndexOf(docs, key.s).value;
      var docs' := docs[i := Snapshot(key.s, docs[i].data + data)];
      assert DistinctIds(docs');
      WithCollectionValid(db, c, docs');
    }
    if CreateRecord(db, c, newId, data).id.Some? {
      var docs' := docs + [Snapshot(newId, data)];
      assert DistinctIds(docs');
      WithCollectionValid(db, c, docs');
    }
    if DeleteRecord(db, c, key).ok && key.VStr? {
      WithoutDistinct(docs, key.s);
      WithCollectionValid(db, c, Without(docs, key.s));
    }
  }

  /** Storing a collection with unique, valid keys keeps the store valid. */
  lemma WithCollectionValid(db: Db, c: string, docs: Collection)
    requires db.Connected? && Valid(db.store)
    requires DistinctIds(docs)
    requires forall i :: 0 <= i < |docs| ==> ValidKey(docs[i].id)
    ensures Valid(WithCollection(db, c, docs).store)
  {
  }

  lemma {:induction false} WithoutDistinct(docs: Collection, id: string)
    requires DistinctIds(docs)
    ensures DistinctIds(Without(docs, id))
    decreases |docs|
  {
    if |docs| > 0 {
      WithoutDistinct(docs[1..], id);
      var rest := Without(docs[1..], id);
      forall j | 0 <= j < |rest|
        ensures rest[j].id != docs[0].id
      {
        assert rest[j] in docs[1..];
      }
    }
  }

  // ---------------------------------------------------------------------
  // Dashboard aggregators

  datatype DriverStats = DriverStats(total: nat, active: nat, inactive: nat, pending: nat, approved: nat)

  /** The driver's `status` is the text 'active'. */
  predicate HasActiveStatus(d: Doc) {
    Get(d, "status") == VStr("active")
  }

  predicate LacksActiveStatus(d: Doc) {
    !HasActiveStatus(d)
  }

  /** The driver's `isApproved`, defaulting to false, is truthy. */
  predicate IsApproved(d: Doc) {
    Truthy(GetOr(d, "isApproved", VBool(false)))
  }

  predicate IsPending(d: Doc) {
    !IsApproved(d)
  }

  predicate LacksApprovalField(d: Doc) {
    "isApproved" !in d
  }

  /** The counting inside `get_drivers_stats`. */
  function StatsOf(drivers: seq<Doc>): (r: DriverStats)
    ensures r.total == |drivers|
    ensures r.active + r.inactive == r.total
    ensures r.pending + r.approved == r.total
    ensures r.active == Count(drivers, HasActiveStatus)
    ensures r.inactive == Count(drivers, LacksActiveStatus)
    ensures r.pending == Count(drivers, IsPending)
    ensures r.approved == Count(drivers, IsApproved)
    ensures Count(drivers, LacksApprovalField) <= r.pending
  {
    var active := Count(drivers, HasActiveStatus);
    var pending := Count(drivers, IsPending);
    CountComplement(drivers, HasActiveStatus, LacksActiveStatus);
    CountComplement(drivers, IsApproved, IsPending);
    CountMonotone(drivers, LacksApprovalField, IsPending);
    DriverStats(|drivers|, active, |drivers| - active, pending, |drivers| - pending)
  }

  /** `get_drivers_stats`. Its `except` branch cannot be reached, because
      `get_all_drivers` already turns every fault into an empty list; with
      no connection the stats are all zero. */
  function DriversStats(db: Db): (r: DriverStats)
    ensures !Reachable(db, DriversCollection) ==> r == DriverStats(0, 0, 0, 0, 0)
    ensures Reachable(db, DriversCollection) ==> r.total == |Docs(db.store, DriversCollection)|
  {
    StatsOf(ListRecords(db, DriversCollection))
  }

  /** The online flag plays no part in the driver stats: two driver lists
      that differ only in `isDriverOnline` give the same stats. */
  lemma OnlineFlagIrrelevant(a: seq<Doc>, b: seq<Doc>)
    requires |a| == |b|
    requires forall i :: 0 <= i < |a| ==> a[i] - {"isDriverOnline"} == b[i] - {"isDriverOnline"}
    ensures StatsOf(a) == StatsOf(b)
  {
    forall i | 0 <= i < |a|
      ensures HasActiveStatus(a[i]) == HasActiveStatus(b[i])
      ensures IsPending(a[i]) == IsPending(b[i])
    {
      assert Get(a[i], "status") == Get(a[i] - {"isDriverOnline"}, "status");
      assert Get(b[i], "status") == Get(b[i] - {"isDriverOnline"}, "status");
      assert GetOr(a[i], "isApproved", VBool(false)) == GetOr(a[i] - {"isDriverOnline"}, "isApproved", VBool(false));
      assert GetOr(b[i], "isApproved", VBool(false)) == GetOr(b[i] - {"isDriverOnline"}, "isApproved", VBool(false));
    }
    CountCongruent(a, b, HasActiveStatus, HasActiveStatus);
    CountCongruent(a, b, IsPending, IsPending);
  }

  datatype CustomerStats = CustomerStats(total: nat)

  /** `get_customers_stats`: the number of records `get_all_customers`
      returns. */
  function CustomersStats(db: Db): (r: CustomerStats)
    ensures !Reachable(db, CustomersCollection) ==> r.total == 0
    ensures Reachable(db, CustomersCollection) ==> r.total == |Docs(db.store, CustomersCollection)|
  {
    CustomerStats(|ListRecords(db, CustomersCollection)|)
  }
}

=== FILE: mailing.dfy ===
/** Bulk mailing to customers and drivers: who receives mail, how many send
    attempts are made, and what the page or JSON reply reports. Outgoing
    mail is an oracle: `send(n, recipients)` is the outcome of the `n`-th
    `send_mail` call of a request. */
module Mailing {
  import opened Basics
  import opened Values
  import opened DocStore
  import opened FirebaseService

  datatype SendResult = Sent | Failed(reason: string)

  type Mailer = (nat, seq<Value>) -> SendResult

  /** The record has a truthy `email`. */
  predicate HasEmail(d: Doc) {
    Truthy(Get(d, "email"))
  }

  /** The truthy emails of the records, in record order. */
  function Recipients(records: seq<Doc>): (r: seq<Value>)
    ensures |r| == Count(records, HasEmail)
    ensures forall i :: 0 <= i < |r| ==> Truthy(r[i])
    decreases |records|
  {
    if |records| == 0 then []
    else
      var last := records[|records| - 1];
      Recipients(records[..|records| - 1]) + (if HasEmail(last) then [Get(last, "email")] else [])
  }

  /** Recipient selection keeps the records' order: the recipients of a
      concatenation are the recipients of each part, in turn. */
  lemma {:induction false} RecipientsAppend(a: seq<Doc>, b: seq<Doc>)
    ensures Recipients(a + b) == Recipients(a) + Recipients(b)
    decreases |b|
  {
    if |b| > 0 {
      var b' := b[..|b| - 1];
      assert (a + b)[..|a + b| - 1] == a + b';
      assert (a + b)[|a + b| - 1] == b[|b| - 1];
      RecipientsAppend(a, b');
    } else {
      assert a + b == a;
    }
  }

  /** A single record contributes its email exactly when the email is truthy. */
  lemma RecipientsOfOne(d: Doc)
    ensures Recipients([d]) == if HasEmail(d) then [Get(d, "email")] else []
  {
    assert [d][..0] == [];
  }

  function CustomerEmails(db: Db): seq<Value> {
    Recipients(ListRecords(db, CustomersCollection))
  }

  function DriverEmails(db: Db): seq<Value> {
    Recipients(ListRecords(db, DriversCollection))
  }

  datatype Banner = NoBanner | SuccessBanner(text: string) | ErrorBanner(text: string)

  datatype MailingPage = MailingPage(banner: Banner, total: nat)

  /** `customer_mailing`: one `send_mail` per recipient, stopping at the
      first failure; success is reported only when every send succeeded.
      `attempts` lists the recipient list of each call made. */
  method CustomerMailing(db: Db, isPost: bool, send: Mailer)
    returns (page: MailingPage, sentCount: nat, attempts: seq<seq<Value>>)
    ensures page.total == Count(ListRecords(db, CustomersCollection), HasEmail)
    ensures !isPost ==> page.banner == NoBanner && attempts == []
    ensures isPost && |CustomerEmails(db)| == 0 ==>
      page.banner == ErrorBanner("No customer emails found.") && attempts == []
    ensures sentCount <= |attempts| <= |CustomerEmails(db)|
    ensures forall j :: 0 <= j < |attempts| ==> attempts[j] == [CustomerEmails(db)[j]]
    ensures forall j :: 0 <= j < sentCount ==> send(j, attempts[j]) == Sent
    ensures page.banner.SuccessBanner? <==> isPost && |CustomerEmails(db)| > 0 && sentCount == |CustomerEmails(db)|
    ensures page.banner.SuccessBanner? ==>
      page.banner.text == "Email sent to " + Decimal(sentCount) + " customers."
    ensures isPost && sentCount < |CustomerEmails(db)| ==>
      && |attempts| == sentCount + 1
      && send(sentCount, attempts[sentCount]).Failed?
      && page.banner == ErrorBanner("Error sending email: " + send(sentCount, attempts[sentCount]).reason)
  {
    var customers := ListRecords(db, CustomersCollection);
    var total := Count(customers, HasEmail);
    sentCount, attempts := 0, [];
    if !isPost {
      page := MailingPage(NoBanner, total);
      return;
    }
    var emails := Recipients(customers);
    if |emails| == 0 {
      page := MailingPage(ErrorBanner("No customer emails found."), total);
      return;
    }
    var failure: Option<string> := None;
    var i := 0;
    while i < |emails| && failure.None?
      invariant 0 <= i <= |emails|
      invariant |attempts| == i
      invariant forall j :: 0 <= j < i ==> attempts[j] == [emails[j]]
      invariant sentCount <= i
      invariant forall j :: 0 <= j < sentCount ==> send(j, attempts[j]) == Sent
      invariant failure.None? ==> sentCount == i
      invariant failure.Some? ==> sentCount + 1 == i && send(sentCount, attempts[sentCount]) == Failed(failure.value)
      decreases |emails| - i
    {
      var outcome := send(i, [emails[i]]);
      attempts := attempts + [[emails[i]]];
      match outcome {
        case Sent =>
          sentCount := sentCount + 1;
        case Failed(reason) =>
          failure := Some(reason);
      }
      i := i + 1;
    }
    match failure
    case None =>
      page := MailingPage(SuccessBanner("Email sent to " + Decimal(sentCount) + " customers."), total);
    case Some(reason) =>
      page := MailingPage(ErrorBanner("Error sending email: " + reason), total);
  }

  /** `driver_mailing`: a single `send_mail` addressed to every driver email. */
  method DriverMailing(db: Db, isPost: bool, send: Mailer)
    returns (page: MailingPage, attempts: seq<seq<Value>>)
    ensures page.total == Count(ListRecords(db, DriversCollection), HasEmail)
    ensures !isPost ==> page.banner == NoBanner && attempts == []
    ensures isPost && |DriverEmails(db)| == 0 ==>
      page.banner == ErrorBanner("No driver emails found.") && attempts == []
    ensures isPost && |DriverEmails(db)| > 0 ==> attempts == [DriverEmails(db)]
    ensures page.banner.SuccessBanner? <==> isPost && |DriverEmails(db)| > 0 && send(0, DriverEmails(db)) == Sent
    ensures page.banner.SuccessBanner? ==> page.banner.text == "Email sent to all drivers."
  {
    var drivers := ListRecords(db, DriversCollection);
    var total := Count(drivers, HasEmail);
    attempts := [];
    if !isPost {
      page := MailingPage(NoBanner, total);
      return;
    }
    var emails := Recipients(drivers);
    if |emails| == 0 {
      page := MailingPage(ErrorBanner("No driver emails found."), total);
      return;
    }
    attempts := [emails];
    match send(0, emails)
    case Sent =>
      page := MailingPage(SuccessBanner("Email sent to all drivers."), total);
    case Failed(reason) =>
      page := MailingPage(ErrorBanner("Error sending email: " + reason), total);
  }

  datatype AjaxReply = Report(sent: nat, total: nat, errors: seq<string>) | InvalidRequest

  predicate IsSent(r: SendResult) {
    r.Sent?
  }

  /** The failure texts among `outcomes`, in order. */
  function FailureReasons(outcomes: seq<SendResult>): (r: seq<string>)
    ensures |r| + Count(outcomes, IsSent) == |outcomes|
    decreases |outcomes|
  {
    if |outcomes| == 0 then []
    else
      var last := outcomes[|outcomes| - 1];
      FailureReasons(outcomes[..|outcomes| - 1]) + (if last.Failed? then [last.reason] else [])
  }

  /** `customer_mailing_ajax`: one send per recipient whatever the earlier
      outcomes; every attempt is either counted as sent or reported as an
      error. */
  method CustomerMailingAjax(db: Db, isPost: bool, send: Mailer)
    returns (reply: AjaxReply, outcomes: seq<SendResult>)
    ensures !isPost ==> reply == InvalidRequest && outcomes == []
    ensures isPost ==> reply.Report? && reply.total == |CustomerEmails(db)|
    ensures |outcomes| == (if isPost then |CustomerEmails(db)| else 0)
    ensures forall j :: 0 <= j < |outcomes| ==> outcomes[j] == send(j, [CustomerEmails(db)[j]])
    ensures isPost ==> reply.sent == Count(outcomes, IsSent) && reply.errors == FailureReasons(outcomes)
    ensures isPost ==> reply.sent + |reply.errors| == reply.total && reply.sent <= reply.total
  {
    outcomes := [];
    if !isPost {
      reply := InvalidRequest;
      return;
    }
    var emails := Recipients(ListRecords(db, CustomersCollection));
    var sent := 0;
    var errors: seq<string> := [];
    for i := 0 to |emails|
      invariant |outcomes| == i
      invariant forall j :: 0 <= j < i ==> outcomes[j] == send(j, [emails[j]])
      invariant sent == Count(outcomes, IsSent)
      invariant errors == FailureReasons(outcomes)
    {
      var outcome := send(i, [emails[i]]);
      match outcome {
        case Sent =>
          sent := sent + 1;
        case Failed(reason) =>
          errors := errors + [reason];
      }
      CountSnoc(outcomes, outcome, IsSent);
      assert (outcomes + [outcome])[..i] == outcomes;
      outcomes := outcomes + [outcome];
    }
    reply := Report(sent, |emails|, errors);
  }
}

=== FILE: mirror.dfy ===
/** The relational mirror's tables and the two operations the sync command
    performs on them: `update_or_create` keyed on the Firebase document id,
    and the per-document loop that tallies successes and failures.

    A table is a sequence of rows in primary-key order; `firebaseId` is the
    lookup column. Nothing forces `firebaseId` to be unique, so
    `update_or_create` is modelled with the ORM's three outcomes: no row
    (insert), one row (update), several rows (`MultipleObjectsReturned`). */
module Mirror {
  import opened Basics
  import opened Values
  import opened DocStore

  datatype Entry<R> = Entry(firebaseId: string, fields: R)

  type Table<R> = seq<Entry<R>>

  /** At most one row per Firebase document. */
  ghost predicate UniqueKeys<R>(t: Table<R>) {
    forall i, j :: 0 <= i < j < |t| ==> t[i].firebaseId != t[j].firebaseId
  }

  /** Position of the first row with the given `firebaseId`. */
  function Find<R>(t: Table<R>, id: string): (r: Option<nat>)
    ensures r.Some? ==> r.value < |t| && t[r.value].firebaseId == id
    ensures r.Some? ==> forall j :: 0 <= j < r.value ==> t[j].firebaseId != id
    ensures r.None? ==> forall j :: 0 <= j < |t| ==> t[j].firebaseId != id
    decreases |t|
  {
    if |t| == 0 then None
    else if t[0].firebaseId == id then Some(0)
    else match Find(t[1..], id)
      case None => None
      case Some(k) => Some(k + 1)
  }

  /** The row stored for a Firebase document, if any. */
  function Lookup<R>(t: Table<R>, id: string): Option<R> {
    match Find(t, id)
    case None => None
    case Some(i) => Some(t[i].fields)
  }

  /** The ORM's `update_or_create` keyed on the Firebase id;
      `None` is the `MultipleObjectsReturned` it raises when several rows
      carry the key. */
  function Upsert<R>(t: Table<R>, id: string, fields: R): Option<Table<R>> {
    match Find(t, id)
    case None => Some(t + [Entry(id, fields)])
    case Some(i) =>
      if Find(t[i + 1..], id).Some? then None
      else Some(t[i := Entry(id, fields)])
  }

  /** Under unique keys the upsert never fails, keeps keys unique, stores the
      row under its key, and leaves every other key's row alone. */
  lemma UpsertSpec<R>(t: Table<R>, id: string, fields: R)
    requires UniqueKeys(t)
    ensures Upsert(t, id, fields).Some?
    ensures UniqueKeys(Upsert(t, id, fields).value)
    ensures Lookup(Upsert(t, id, fields).value, id) == Some(fields)
    ensures forall k :: k != id ==> Lookup(Upsert(t, id, fields).value, k) == Lookup(t, k)
  {
    match Find(t, id)
    case None =>
      var t' := t + [Entry(id, fields)];
      assert Find(t', id) == Some(|t|) by {
        FindAppend(t, Entry(id, fields), id);
      }
      forall k | k != id
        ensures Lookup(t', k) == Lookup(t, k)
      {
        FindAppend(t, Entry(id, fields), k);
      }
    case Some(i) =>
      assert Find(t[i + 1..], id).None?;
      var t' := t[i := Entry(id, fields)];
      SameKeysSameFind(t, t', id);
      forall k | k != id
        ensures Lookup(t', k) == Lookup(t, k)
      {
        SameKeysSameFind(t, t', k);
      }
  }

  /** Every row after an upsert is either a row from before or the
      upserted one. */
  lemma UpsertRows<R>(t: Table<R>, id: string, fields: R, i: nat)
    requires Upsert(t, id, fields).Some?
    requires i < |Upsert(t, id, fields).value|
    ensures Upsert(t, id, fields).value[i] == Entry(id, fields) || Upsert(t, id, fields).value[i] in t
  {
    match Find(t, id)
    case None =>
    case Some(j) =>
      if i != j {
        assert Upsert(t, id, fields).value[i] == t[i];
      }
  }

  /** Appending a row does not move the first row of any key. */
  lemma FindAppend<R>(t: Table<R>, e: Entry<R>, k: string)
    ensures Find(t + [e], k) == (if Find(t, k).Some? then Find(t, k) else if e.firebaseId == k then Some(|t|) else None)
  {
    var t' := t + [e];
    match Find(t, k)
    case Some(i) =>
      assert t'[i].firebaseId == k;
    case None =>
      if e.firebaseId == k {
        assert t'[|t|].firebaseId == k;
      }
  }

  /** Tables with the same keys in the same places find the same rows. */
  lemma SameKeysSameFind<R>(t: Table<R>, t': Table<R>, k: string)
    requires |t| == |t'|
    requires forall j :: 0 <= j < |t| ==> t[j].firebaseId == t'[j].firebaseId
    ensures Find(t, k) == Find(t', k)
  {
    match Find(t', k)
    case Some(j) =>
      assert t[j].firebaseId == k;
    case None =>
  }

  /** Re-upserting the row a key already holds changes nothing. */
  lemma UpsertSame<R>(t: Table<R>, id: string, fields: R)
    requires UniqueKeys(t)
    requires Lookup(t, id) == Some(fields)
    ensures Upsert(t, id, fields) == Some(t)
  {
    var i := Find(t, id).value;
    assert Find(t[i + 1..], id).None?;
    assert t[i := Entry(id, fields)] == t;
  }

  // ---------------------------------------------------------------------
  // The per-document loop

  /** The loop's result: the table afterwards, the `count` of documents
      written and the number that raised. */
  datatype Tally<R> = Tally(table: Table<R>, count: nat, errors: nat)

  /** The sync loop: each document either yields a new table and is counted,
      or raises, leaves the table as it was and is counted as an error;
      either way the loop continues. */
  function Fold<R>(t: Table<R>, docs: seq<Snapshot>, step: (Table<R>, Snapshot) -> Option<Table<R>>): (r: Tally<R>)
    ensures r.count + r.errors == |docs|
    decreases |docs|
  {
    if |docs| == 0 then Tally(t, 0, 0)
    else
      var prev := Fold(t, docs[..|docs| - 1], step);
      match step(prev.table, docs[|docs| - 1])
      case Some(t') => Tally(t', prev.count + 1, prev.errors)
      case None => Tally(prev.table, prev.count, prev.errors + 1)
  }

  /** A table property that every successful step keeps holds after the
      whole loop. */
  lemma {:induction false} FoldPreserves<R>(t: Table<R>, docs: seq<Snapshot>, step: (Table<R>, Snapshot) -> Option<Table<R>>, inv: Table<R> -> bool)
    requires inv(t)
    requires forall t', d :: inv(t') && step(t', d).Some? ==> inv(step(t', d).value)
    ensures inv(Fold(t, docs, step).table)
    decreases |docs|
  {
    if |docs| > 0 {
      FoldPreserves(t, docs[..|docs| - 1], step, inv);
    }
  }

  /** If a step can only succeed on documents satisfying `p`, the loop
      counts no more documents than satisfy `p`. */
  lemma {:induction false} FoldCountBound<R>(t: Table<R>, docs: seq<Snapshot>, step: (Table<R>, Snapshot) -> Option<Table<R>>, p: Snapshot -> bool)
    requires forall t', d :: step(t', d).Some? ==> p(d)
    ensures Fold(t, docs, step).count <= Count(docs, p)
    decreases |docs|
  {
    if |docs| > 0 {
      var docs' := docs[..|docs| - 1];
      var d := docs[|docs| - 1];
      FoldCountBound(t, docs', step, p);
      assert docs == docs' + [d];
      CountSnoc(docs', d, p);
      var prev := Fold(t, docs', step);
      if step(prev.table, d).Some? {
        assert p(d);
        assert Fold(t, docs, step).count == prev.count + 1;
      } else {
        assert Fold(t, docs, step).count == prev.count;
      }
    }
  }

  /** Saving the row a document maps to. Building the row may raise
      (`None`), the ORM (`accepts`) may refuse it, and the upsert may
      raise. */
  function AcceptAndUpsert<R>(t: Table<R>, id: string, row: Option<R>, accepts: R -> bool): Option<Table<R>> {
    match row
    case None => None
    case Some(fields) => if accepts(fields) then Upsert(t, id, fields) else None
  }

  /** The body of a sync loop: map the document to a row and upsert it
      under the document's key. */
  function UpsertStep<R>(rowOf: Snapshot -> Option<R>, accepts: R -> bool): (Table<R>, Snapshot) -> Option<Table<R>> {
    (t: Table<R>, d: Snapshot) => AcceptAndUpsert(t, d.id, rowOf(d), accepts)
  }

  /** The documents whose row can be built and is accepted. */
  function Accepted<R>(rowOf: Snapshot -> Option<R>, accepts: R -> bool): Snapshot -> bool {
    (d: Snapshot) => rowOf(d).Some? && accepts(rowOf(d).value)
  }

  /** A loop none of whose documents yields a row writes nothing and
      counts nothing. */
  lemma {:induction false} FoldWithoutRows<R>(t: Table<R>, docs: seq<Snapshot>, rowOf: Snapshot -> Option<R>, accepts: R -> bool)
    requires forall d :: rowOf(d).None?
    ensures Fold(t, docs, UpsertStep(rowOf, accepts)) == Tally(t, 0, |docs|)
    decreases |docs|
  {
    if |docs| > 0 {
      FoldWithoutRows(t, docs[..|docs| - 1], rowOf, accepts);
    }
  }

  /** Starting from a table with unique keys, the upsert loop keeps keys
      unique and counts exactly the documents whose row the ORM accepts. */
  lemma {:induction false} UpsertFoldCount<R>(t: Table<R>, docs: seq<Snapshot>, rowOf: Snapshot -> Option<R>, accepts: R -> bool)
    requires UniqueKeys(t)
    ensures UniqueKeys(Fold(t, docs, UpsertStep(rowOf, accepts)).table)
    ensures Fold(t, docs, UpsertStep(rowOf, accepts)).count == Count(docs, Accepted(rowOf, accepts))
    decreases |docs|
  {
    if |docs| > 0 {
      var docs' := docs[..|docs| - 1];
      var d := docs[|docs| - 1];
      UpsertFoldCount(t, docs', rowOf, accepts);
      var prev := Fold(t, docs', UpsertStep(rowOf, accepts));
      if Accepted(rowOf, accepts)(d) {
        UpsertSpec(prev.table, d.id, rowOf(d).value);
      }
      assert docs == docs' + [d];
      CountSnoc(docs', d, Accepted(rowOf, accepts));
    }
  }

  /** The upsert loop never loses a key: a key that has a row before the
      loop has one after it. */
  lemma UpsertFoldKeepsKeys<R>(t: Table<R>, docs: seq<Snapshot>, rowOf: Snapshot -> Option<R>, accepts: R -> bool, k: string)
    requires UniqueKeys(t) && Find(t, k).Some?
    ensures Find(Fold(t, docs, UpsertStep(rowOf, accepts)).table, k).Some?
  {
    var step := UpsertStep(rowOf, accepts);
    var inv := (t': Table<R>) => UniqueKeys(t') && Find(t', k).Some?;
    forall t', d | inv(t') && step(t', d).Some?
      ensures inv(step(t', d).value)
    {
      assert step(t', d) == AcceptAndUpsert(t', d.id, rowOf(d), accepts);
      UpsertSpec(t', d.id, rowOf(d).value);
      assert Lookup(step(t', d).value, k).Some?;
    }
    FoldPreserves(t, docs, step, inv);
  }

  /** What a key holds after the loop: the row of the document with that
      key when the ORM accepts it, otherwise what it held before. */
  function ExpectedLookup<R>(t: Table<R>, docs: seq<Snapshot>, rowOf: Snapshot -> Option<R>, accepts: R -> bool, k: string): Option<R> {
    match IndexOf(docs, k)
    case Some(i) => if Accepted(rowOf, accepts)(docs[i]) then rowOf(docs[i]) else Lookup(t, k)
    case None => Lookup(t, k)
  }

  /** Appending a document with a fresh key: the old documents are found
      where they were, and the new key is found at the end. */
  lemma IndexOfSnoc(docs: seq<Snapshot>, d: Snapshot, k: string)
    requires IndexOf(docs, d.id).None?
    ensures IndexOf(docs + [d], k) == (if k == d.id then Some(|docs|) else IndexOf(docs, k))
  {
    var docs2 := docs + [d];
    if k == d.id {
      assert docs2[|docs|].id == k;
    } else {
      match IndexOf(docs, k)
      case Some(i) =>
        assert docs2[i].id == k;
      case None =>
    }
  }

  /** After the upsert loop over documents with distinct keys, every key
      holds what `ExpectedLookup` says. */
  lemma {:induction false} UpsertFoldLookup<R>(t: Table<R>, docs: seq<Snapshot>, rowOf: Snapshot -> Option<R>, accepts: R -> bool, k: string)
    requires UniqueKeys(t)
    requires DistinctIds(docs)
    ensures Lookup(Fold(t, docs, UpsertStep(rowOf, accepts)).table, k) == ExpectedLookup(t, docs, rowOf, accepts, k)
    decreases |docs|
  {
    if |docs| > 0 {
      var docs' := docs[..|docs| - 1];
      var d := docs[|docs| - 1];
      assert docs == docs' + [d];
      assert DistinctIds(docs');
      assert IndexOf(docs', d.id).None?;
      UpsertFoldLookup(t, docs', rowOf, accepts, k);
      UpsertFoldCount(t, docs', rowOf, accepts);
      var prev := Fold(t, docs', UpsertStep(rowOf, accepts));
      IndexOfSnoc(docs', d, k);
      if Accepted(rowOf, accepts)(d) {
        UpsertSpec(prev.table, d.id, rowOf(d).value);
      }
    }
  }

  /** Running the loop a second time over the same documents leaves the
      mirror as the first run left it. */
  lemma UpsertFoldIdempotent<R>(t: Table<R>, docs: seq<Snapshot>, rowOf: Snapshot -> Option<R>, accepts: R -> bool)
    requires UniqueKeys(t)
    requires DistinctIds(docs)
    ensures Fold(Fold(t, docs, UpsertStep(rowOf, accepts)).table, docs, UpsertStep(rowOf, accepts)).table
         == Fold(t, docs, UpsertStep(rowOf, accepts)).table
  {
    var step := UpsertStep(rowOf, accepts);
    var once := Fold(t, docs, step).table;
    UpsertFoldCount(t, docs, rowOf, accepts);
    for n := 0 to |docs|
      invariant Fold(once, docs[..n], step).table == once
    {
      var d := docs[n];
      assert docs[..n + 1][..n] == docs[..n];
      IndexOfDistinct(docs, n);
      if Accepted(rowOf, accepts)(d) {
        UpsertFoldLookup(t, docs, rowOf, accepts, d.id);
        UpsertSame(once, d.id, rowOf(d).value);
      }
    }
    assert docs[..|docs|] == docs;
  }

  /** Two row mappings that agree on every document of the loop drive it
      to the same table and the same tallies. */
  lemma {:induction false} FoldAgrees<R>(t: Table<R>, docs: seq<Snapshot>, rowOf: Snapshot -> Option<R>, rowOf': Snapshot -> Option<R>, accepts: R -> bool)
    requires forall i :: 0 <= i < |docs| ==> rowOf(docs[i]) == rowOf'(docs[i])
    ensures Fold(t, docs, UpsertStep(rowOf, accepts)) == Fold(t, docs, UpsertStep(rowOf', accepts))
    decreases |docs|
  {
    if |docs| > 0 {
      var docs' := docs[..|docs| - 1];
      assert forall i :: 0 <= i < |docs'| ==> docs'[i] == docs[i];
      FoldAgrees(t, docs', rowOf, rowOf', accepts);
    }
  }

  // ---------------------------------------------------------------------
  // The ORM's `get`

  /** Outcome of the ORM's `get`: `DoesNotExist`, one row, or
      `MultipleObjectsReturned`. */
  datatype Resolved = NoMatch | Unique(key: string) | Ambiguous

  /** `objects.get` over the rows satisfying `q`; a unique match is named
      by its Firebase id. */
  function Resolve<R>(t: Table<R>, q: Entry<R> -> bool): (r: Resolved)
    ensures r.NoMatch? <==> Count(t, q) == 0
    ensures r.Ambiguous? <==> Count(t, q) >= 2
    ensures r.Unique? ==> exists i :: 0 <= i < |t| && q(t[i]) && t[i].firebaseId == r.key
    decreases |t|
  {
    if |t| == 0 then NoMatch
    else
      var last := t[|t| - 1];
      var prev := Resolve(t[..|t| - 1], q);
      if !q(last) then prev
      else if prev.NoMatch? then Unique(last.firebaseId)
      else Ambiguous
  }
}

=== FILE: sync_command.dfy ===
/** The `sync_firebase_data` management command: pulling drivers, customers
    and orders from the store into the relational mirror, pushing mirror
    rows back, and the `--model` / `--direction` / `--dry-run` dispatch.

    The ORM's validation of a row (`accept…`), `save_to_firebase`
    (`push…`), `float()` of a string (`parseFloat`), the date handling
    (`clock`) and the point where the `Drivers` stream's connection breaks
    (`driversCut`) are oracles carried in `Env`. */
module SyncCommand {
  import opened Basics
  import opened Values
  import opened DocStore
  import opened FirebaseService
  import opened Mirror

  const OrdersCollection := "Orders"

  // ---------------------------------------------------------------------
  // Document → row mapping

  /** The clock of a run: the time `timezone.now()` gives, and what the
      date parsing makes of a stored `dateCreated` (an ISO text or a
      timestamp's seconds as a moment; nothing when neither applies). */
  datatype Clock = Clock(now: int, parseDate: Value -> Option<int>)

  /** `date_created` as the command leaves it: the time of the sync, or the
      moment read from the document. */
  datatype Stamp = SyncTime(at: int) | Stored(moment: int)

  /** A document keeps its own date when `dateCreated` is truthy and parses. */
  predicate HasOwnDate(data: Doc, clock: Clock) {
    Truthy(Get(data, "dateCreated")) && clock.parseDate(Get(data, "dateCreated")).Some?
  }

  /** The stored moment when the document has its own date, the time of the
      sync otherwise. */
  function StampOf(data: Doc, clock: Clock): (s: Stamp)
    ensures s.Stored? <==> HasOwnDate(data, clock)
    ensures s.SyncTime? ==> s.at == clock.now
  {
    if HasOwnDate(data, clock) then Stored(clock.parseDate(Get(data, "dateCreated")).value)
    else SyncTime(clock.now)
  }

  /** Only documents without their own date depend on the time of the sync. */
  lemma StampIgnoresTime(data: Doc, clock: Clock, later: int)
    requires HasOwnDate(data, clock)
    ensures StampOf(data, clock.(now := later)) == StampOf(data, clock)
  {
  }

  datatype Geo = Geo(latitude: Value, longitude: Value)

  /** Latitude and longitude taken from `geoPosition` when it is a
      non-empty dict; `None`/`None` otherwise. */
  function GeoOf(data: Doc): (g: Geo)
    ensures Get(data, "geoPosition").VMap? ==>
      g == Geo(Get(Get(data, "geoPosition").fields, "latitude"), Get(Get(data, "geoPosition").fields, "longitude"))
    ensures !Get(data, "geoPosition").VMap? ==> g == Geo(VNull, VNull)
  {
    var geo := Get(data, "geoPosition");
    if Truthy(geo) && geo.VMap? then Geo(Get(geo.fields, "latitude"), Get(geo.fields, "longitude"))
    else Geo(VNull, VNull)
  }

  /** The `defaults` written for a driver document. */
  datatype DriverRow = DriverRow(
    driversId: Value,
    firstName: Value,
    lastName: Value,
    email: Value,
    phoneNumber: Value,
    profilePic: Value,
    isApproved: Value,
    isDriverOnline: Value,
    userToken: Value,
    geo: Geo,
    dateCreated: Stamp)

  function DriverRowOf(d: Snapshot, clock: Clock): (r: DriverRow)
    ensures r.driversId == (if "driversId" in d.data then d.data["driversId"] else VStr(d.id))
    ensures r.firstName == (if "firstName" in d.data then d.data["firstName"] else VStr(""))
    ensures r.lastName == (if "lastName" in d.data then d.data["lastName"] else VStr(""))
    ensures r.email == (if "email" in d.data then d.data["email"] else VStr(""))
    ensures r.phoneNumber == (if "phoneNumber" in d.data then d.data["phoneNumber"] else VStr(""))
    ensures r.userToken == (if "userToken" in d.data then d.data["userToken"] else VStr(""))
    ensures r.profilePic == (if "profilePic" in d.data then d.data["profilePic"] else VNull)
    ensures r.isDriverOnline == (if "isDriverOnline" in d.data then d.data["isDriverOnline"] else VBool(false))
    ensures r.isApproved == (if "isApproved" in d.data then d.data["isApproved"] else VBool(false))
    ensures Truthy(r.isApproved) <==> IsApproved(d.data)
    ensures r.geo == GeoOf(d.data)
    ensures r.dateCreated == StampOf(d.data, clock)
  {
    var data := d.data;
    DriverRow(
      GetOr(data, "driversId", VStr(d.id)),
      GetOr(data, "firstName", VStr("")),
      GetOr(data, "lastName", VStr("")),
      GetOr(data, "email", VStr("")),
      GetOr(data, "phoneNumber", VStr("")),
      Get(data, "profilePic"),
      GetOr(data, "isApproved", VBool(false)),
      GetOr(data, "isDriverOnline", VBool(false)),
      GetOr(data, "userToken", VStr("")),
      GeoOf(data),
      StampOf(data, clock))
  }

  /** Building a driver row never raises. */
  function DriverRowFor(clock: Clock): Snapshot -> Option<DriverRow> {
    (d: Snapshot) => Some(DriverRowOf(d, clock))
  }

  /** The `defaults` written for a customer document. */
  datatype CustomerRow = CustomerRow(
    customerId: Value,
    firstName: Value,
    lastName: Value,
    email: Value,
    phoneNumber: Value,
    profilePic: Value,
    userToken: Value,
    geo: Geo,
    dateCreated: Stamp)

  function CustomerRowOf(d: Snapshot, clock: Clock): (r: CustomerRow)
    ensures r.customerId == (if "customerId" in d.data then d.data["customerId"] else VStr(d.id))
    ensures r.firstName == (if "firstName" in d.data then d.data["firstName"] else VStr(""))
    ensures r.lastName == (if "lastName" in d.data then d.data["lastName"] else VStr(""))
    ensures r.email == (if "email" in d.data then d.data["email"] else VStr(""))
    ensures r.phoneNumber == (if "phoneNumber" in d.data then d.data["phoneNumber"] else VStr(""))
    ensures r.userToken == (if "userToken" in d.data then d.data["userToken"] else VStr(""))
    ensures r.profilePic == (if "profilePic" in d.data then d.data["profilePic"] else VNull)
    ensures r.geo == GeoOf(d.data)
    ensures r.dateCreated == StampOf(d.data, clock)
  {
    var data := d.data;
    CustomerRow(
      GetOr(data, "customerId", VStr(d.id)),
      GetOr(data, "firstName", VStr("")),
      GetOr(data, "lastName", VStr("")),
      GetOr(data, "email", VStr("")),
      GetOr(data, "phoneNumber", VStr("")),
      Get(data, "profilePic"),
      GetOr(data, "userToken", VStr("")),
      GeoOf(data),
      StampOf(data, clock))
  }

  /** Building a customer row never raises. */
  function CustomerRowFor(clock: Clock): Snapshot -> Option<CustomerRow> {
    (d: Snapshot) => Some(CustomerRowOf(d, clock))
  }

  /** An order row; `customer` and `driver` are the Firebase ids of the
      mirror rows the order points at. */
  datatype OrderRow = OrderRow(
    customer: string,
    driver: Option<string>,
    pickupAddress: Value,
    deliveryAddress: Value,
    pickupLatitude: Value,
    pickupLongitude: Value,
    deliveryLatitude: Value,
    deliveryLongitude: Value,
    status: Value,
    fare: real)

  /** The external collaborators of one run. */
  datatype Env = Env(
    acceptDriver: DriverRow -> bool,
    acceptCustomer: CustomerRow -> bool,
    acceptOrder: OrderRow -> bool,
    parseFloat: string -> Option<real>,
    pushDriver: Entry<DriverRow> -> bool,
    pushCustomer: Entry<CustomerRow> -> bool,
    clock: Clock,
    driversCut: Option<nat>)

  /** The relational mirror. */
  datatype MirrorDb = MirrorDb(
    drivers: Table<DriverRow>,
    customers: Table<CustomerRow>,
    orders: Table<OrderRow>)

  ghost predicate WellKeyed(m: MirrorDb) {
    UniqueKeys(m.drivers) && UniqueKeys(m.customers) && UniqueKeys(m.orders)
  }

  // ---------------------------------------------------------------------
  // Pulling drivers and customers

  /** The `Drivers` stream raises: it cannot be opened, or its connection
      breaks before the last document. */
  predicate DriversStreamBreaks(db: Db, env: Env) {
    || !Reachable(db, DriversCollection)
    || (env.driversCut.Some? && env.driversCut.value < |Docs(db.store, DriversCollection)|)
  }

  /** The documents the `Drivers` stream yields before it ends or raises:
      none when it cannot be opened, the first `k` when its connection
      breaks after `k`, and otherwise all of them. */
  function DriversYield(db: Db, env: Env): (docs: Collection)
    ensures !Reachable(db, DriversCollection) ==> docs == []
    ensures Reachable(db, DriversCollection) ==>
      && |docs| <= |Docs(db.store, DriversCollection)|
      && docs == Docs(db.store, DriversCollection)[..|docs|]
    ensures Reachable(db, DriversCollection) && DriversStreamBreaks(db, env) ==> |docs| == env.driversCut.value
    ensures !DriversStreamBreaks(db, env) ==> docs == Docs(db.store, DriversCollection)
  {
    if !Reachable(db, DriversCollection) then []
    else
      var docs := Docs(db.store, DriversCollection);
      match env.driversCut
      case Some(k) => if k < |docs| then docs[..k] else docs
      case None => docs
  }

  /** A pull over a lazily consumed stream: the tally of the documents
      synced before the stream ended, and whether it ended by raising. */
  datatype Pull<R> = Pull(tally: Tally<R>, raised: bool)

  /** `_sync_drivers_from_firebase`. The stream is consumed lazily outside
      the per-document `try`: a fault propagates, but only after the
      documents already yielded were written. A document that fails is
      counted as an error and the loop goes on. */
  function SyncDriversFromFirebase(db: Db, t: Table<DriverRow>, env: Env): (r: Pull<DriverRow>)
    ensures r.raised <==> DriversStreamBreaks(db, env)
    ensures !Reachable(db, DriversCollection) ==> r.tally == Tally(t, 0, 0)
    ensures r.tally.count + r.tally.errors == |DriversYield(db, env)|
    ensures !r.raised ==> r.tally.count + r.tally.errors == |Docs(db.store, DriversCollection)|
  {
    Pull(Fold(t, DriversYield(db, env), UpsertStep(DriverRowFor(env.clock), env.acceptDriver)), DriversStreamBreaks(db, env))
  }

  /** Every collection of a valid store has distinct keys. */
  lemma ValidDocs(s: Store, c: string)
    requires Valid(s)
    ensures DistinctIds(Docs(s, c))
  {
  }

  /** What the `Drivers` stream yields of a valid store has distinct keys. */
  lemma ValidYield(db: Db, env: Env)
    requires db.Connected? && Valid(db.store)
    ensures DistinctIds(DriversYield(db, env))
  {
    ValidDocs(db.store, DriversCollection);
    var docs := DriversYield(db, env);
    if Reachable(db, DriversCollection) {
      forall i, j | 0 <= i < j < |docs|
        ensures docs[i].id != docs[j].id
      {
        assert docs[i] == Docs(db.store, DriversCollection)[i];
        assert docs[j] == Docs(db.store, DriversCollection)[j];
      }
    }
  }

  /** The pulled driver mirror, whether or not the stream raised: keys
      stay unique, the count is the number of yielded documents the ORM
      accepts, and each key holds the row of its yielded document. */
  lemma SyncDriversFromFirebaseSpec(db: Db, t: Table<DriverRow>, env: Env)
    requires db.Connected? && Valid(db.store)
    requires UniqueKeys(t)
    ensures UniqueKeys(SyncDriversFromFirebase(db, t, env).tally.table)
    ensures SyncDriversFromFirebase(db, t, env).tally.count
         == Count(DriversYield(db, env), Accepted(DriverRowFor(env.clock), env.acceptDriver))
    ensures forall k :: (Mirror.Lookup(SyncDriversFromFirebase(db, t, env).tally.table, k)
                      == ExpectedLookup(t, DriversYield(db, env), DriverRowFor(env.clock), env.acceptDriver, k))
  {
    var docs := DriversYield(db, env);
    ValidYield(db, env);
    UpsertFoldCount(t, docs, DriverRowFor(env.clock), env.acceptDriver);
    forall k
      ensures Mirror.Lookup(SyncDriversFromFirebase(db, t, env).tally.table, k)
           == ExpectedLookup(t, docs, DriverRowFor(env.clock), env.acceptDriver, k)
    {
      UpsertFoldLookup(t, docs, DriverRowFor(env.clock), env.acceptDriver, k);
    }
  }

  /** Pulling drivers a second time with unchanged documents and the same
      clock leaves the mirror as the first pull left it. */
  lemma SyncDriversIdempotent(db: Db, t: Table<DriverRow>, env: Env)
    requires db.Connected? && Valid(db.store)
    requires UniqueKeys(t)
    ensures var once := SyncDriversFromFirebase(db, t, env).tally.table;
      SyncDriversFromFirebase(db, once, env).tally.table == once
  {
    ValidYield(db, env);
    UpsertFoldIdempotent(t, DriversYield(db, env), DriverRowFor(env.clock), env.acceptDriver);
  }

  /** Pulling drivers again at any later time leaves the mirror as the
      first pull left it when every document carries its own parsable
      `dateCreated`: only the rows of undated documents are re-stamped. */
  lemma SyncDriversRepullStable(db: Db, t: Table<DriverRow>, env: Env, later: int)
    requires db.Connected? && Valid(db.store)
    requires UniqueKeys(t)
    requires forall i :: 0 <= i < |Docs(db.store, DriversCollection)| ==>
      HasOwnDate(Docs(db.store, DriversCollection)[i].data, env.clock)
    ensures var once := SyncDriversFromFirebase(db, t, env).tally.table;
      SyncDriversFromFirebase(db, once, env.(clock := env.clock.(now := later))).tally.table == once
  {
    var docs := DriversYield(db, env);
    var env' := env.(clock := env.clock.(now := later));
    var once := SyncDriversFromFirebase(db, t, env).tally.table;
    assert DriversYield(db, env') == docs;
    forall i | 0 <= i < |docs|
      ensures DriverRowFor(env.clock)(docs[i]) == DriverRowFor(env'.clock)(docs[i])
    {
      assert docs[i] == Docs(db.store, DriversCollection)[i];
      StampIgnoresTime(docs[i].data, env.clock, later);
    }
    FoldAgrees(once, docs, DriverRowFor(env.clock), DriverRowFor(env'.clock), env.acceptDriver);
    SyncDriversIdempotent(db, t, env);
  }

  /** A driver document without `dateCreated`, pulled once and then again a
      tick later: the second pull re-stamps its row, so the mirror changes. */
  lemma DriversRepullRestamps(env: Env)
    ensures var d := Snapshot("d1", map[]);
      var db := Connected(Store(map[DriversCollection := [d]]), {});
      var env0 := env.(acceptDriver := _ => true, driversCut := None);
      var once := SyncDriversFromFirebase(db, [], env0).tally.table;
      && once == [Entry("d1", DriverRowOf(d, env.clock))]
      && SyncDriversFromFirebase(db, once, env0.(clock := env.clock.(now := env.clock.now + 1))).tally.table != once
  {
    var d := Snapshot("d1", map[]);
    var db := Connected(Store(map[DriversCollection := [d]]), {});
    var env0 := env.(acceptDriver := _ => true, driversCut := None);
    var env1 := env0.(clock := env.clock.(now := env.clock.now + 1));
    assert Reachable(db, DriversCollection) && Docs(db.store, DriversCollection) == [d];
    assert [d][..0] == [];
    var row0 := DriverRowOf(d, env.clock);
    var row1 := DriverRowOf(d, env1.clock);
    var empty: Table<DriverRow> := [];
    assert Find(empty, "d1").None?;
    assert empty + [Entry("d1", row0)] == [Entry("d1", row0)];
    assert Upsert(empty, "d1", row0) == Some([Entry("d1", row0)]);
    var step0 := UpsertStep(DriverRowFor(env0.clock), env0.acceptDriver);
    assert Fold(empty, [d][..0], step0) == Tally(empty, 0, 0);
    assert DriverRowFor(env0.clock)(d) == Some(row0);
    assert env0.acceptDriver(row0);
    assert AcceptAndUpsert(empty, "d1", Some(row0), env0.acceptDriver) == Some([Entry("d1", row0)]);
    assert step0(empty, d) == Some([Entry("d1", row0)]);
    var once := SyncDriversFromFirebase(db, empty, env0).tally.table;
    assert once == [Entry("d1", row0)];
    assert Find(once, "d1") == Some(0);
    assert Find(once[1..], "d1").None?;
    assert once[0 := Entry("d1", row1)] == [Entry("d1", row1)];
    assert Upsert(once, "d1", row1) == Some([Entry("d1", row1)]);
    var step1 := UpsertStep(DriverRowFor(env1.clock), env1.acceptDriver);
    assert Fold(once, [d][..0], step1) == Tally(once, 0, 0);
    assert step1(once, d) == Some([Entry("d1", row1)]);
    var twice := SyncDriversFromFirebase(db, once, env1).tally.table;
    assert twice == [Entry("d1", row1)];
    assert row1.dateCreated == SyncTime(env.clock.now + 1) != row0.dateCreated;
  }

  /** `_sync_customers_from_firebase`: a missing client raises, while a
      failing or empty `Customers` stream gives 0 and writes nothing. */
  function SyncCustomersFromFirebase(db: Db, t: Table<CustomerRow>, env: Env): (r: Fetch<Tally<CustomerRow>>)
    ensures r.Fault? <==> db.Disconnected?
    ensures db.Connected? && !Reachable(db, CustomersCollection) ==> r == Fetched(Tally(t, 0, 0))
    ensures Reachable(db, CustomersCollection) ==>
      r.value.count + r.value.errors == |Docs(db.store, CustomersCollection)|
  {
    if db.Disconnected? then Fault
    else match Stream(db, CustomersCollection)
      case Fault => Fetched(Tally(t, 0, 0))
      case Fetched(docs) =>
        if |docs| == 0 then Fetched(Tally(t, 0, 0))
        else Fetched(Fold(t, docs, UpsertStep(CustomerRowFor(env.clock), env.acceptCustomer)))
  }

  /** The pulled customer mirror: keys stay unique, the count is the
      number of documents the ORM accepts, and each key holds the row of
      its document. */
  lemma SyncCustomersFromFirebaseSpec(db: Db, t: Table<CustomerRow>, env: Env)
    requires Reachable(db, CustomersCollection) && Valid(db.store)
    requires UniqueKeys(t)
    ensures UniqueKeys(SyncCustomersFromFirebase(db, t, env).value.table)
    ensures SyncCustomersFromFirebase(db, t, env).value.count
         == Count(Docs(db.store, CustomersCollection), Accepted(CustomerRowFor(env.clock), env.acceptCustomer))
    ensures forall k :: (Mirror.Lookup(SyncCustomersFromFirebase(db, t, env).value.table, k)
                      == ExpectedLookup(t, Docs(db.store, CustomersCollection), CustomerRowFor(env.clock), env.acceptCustomer, k))
  {
    var docs := Docs(db.store, CustomersCollection);
    ValidDocs(db.store, CustomersCollection);
    UpsertFoldCount(t, docs, CustomerRowFor(env.clock), env.acceptCustomer);
    forall k
      ensures Mirror.Lookup(SyncCustomersFromFirebase(db, t, env).value.table, k)
           == ExpectedLookup(t, docs, CustomerRowFor(env.clock), env.acceptCustomer, k)
    {
      UpsertFoldLookup(t, docs, CustomerRowFor(env.clock), env.acceptCustomer, k);
    }
  }

  /** Pulling customers a second time with unchanged documents and the
      same clock leaves the mirror as the first pull left it. */
  lemma SyncCustomersIdempotent(db: Db, t: Table<CustomerRow>, env: Env)
    requires Reachable(db, CustomersCollection) && Valid(db.store)
    requires UniqueKeys(t)
    ensures var once := SyncCustomersFromFirebase(db, t, env).value.table;
      SyncCustomersFromFirebase(db, once, env).value.table == once
  {
    ValidDocs(db.store, CustomersCollection);
    UpsertFoldIdempotent(t, Docs(db.store, CustomersCollection), CustomerRowFor(env.clock), env.acceptCustomer);
  }

  /** Pulling customers again at any later time leaves the mirror as the
      first pull left it when every document carries its own parsable
      `dateCreated`. */
  lemma SyncCustomersRepullStable(db: Db, t: Table<CustomerRow>, env: Env, later: int)
    requires Reachable(db, CustomersCollection) && Valid(db.store)
    requires UniqueKeys(t)
    requires forall i :: 0 <= i < |Docs(db.store, CustomersCollection)| ==>
      HasOwnDate(Docs(db.store, CustomersCollection)[i].data, env.clock)
    ensures var once := SyncCustomersFromFirebase(db, t, env).value.table;
      SyncCustomersFromFirebase(db, once, env.(clock := env.clock.(now := later))).value.table == once
  {
    var docs := Docs(db.store, CustomersCollection);
    var env' := env.(clock := env.clock.(now := later));
    var once := SyncCustomersFromFirebase(db, t, env).value.table;
    forall i | 0 <= i < |docs|
      ensures CustomerRowFor(env.clock)(docs[i]) == CustomerRowFor(env'.clock)(docs[i])
    {
      StampIgnoresTime(docs[i].data, env.clock, later);
    }
    FoldAgrees(once, docs, CustomerRowFor(env.clock), CustomerRowFor(env'.clock), env.acceptCustomer);
    SyncCustomersIdempotent(db, t, env);
  }

  // ---------------------------------------------------------------------
  // Pulling orders

  /** A customer row is the one an order's `customerId` names: by Firebase
      id or by the stored `customer_id`. */
  predicate NamesCustomer(ref: Value, e: Entry<CustomerRow>) {
    ref == VStr(e.firebaseId) || ref == e.fields.customerId
  }

  /** A driver row is the one an order's `driverId` names: by Firebase id
      or by the stored `drivers_id`. */
  predicate NamesDriver(ref: Value, e: Entry<DriverRow>) {
    ref == VStr(e.firebaseId) || ref == e.fields.driversId
  }

  /** The customer lookup, attempted only for a truthy `customerId`. */
  function CustomerOf(customers: Table<CustomerRow>, data: Doc): Resolved {
    var ref := Get(data, "customerId");
    if Truthy(ref) then Resolve(customers, (e: Entry<CustomerRow>) => NamesCustomer(ref, e)) else NoMatch
  }

  /** The driver lookup, attempted only for a truthy `driverId`. */
  function DriverOf(drivers: Table<DriverRow>, data: Doc): Resolved {
    var ref := Get(data, "driverId");
    if Truthy(ref) then Resolve(drivers, (e: Entry<DriverRow>) => NamesDriver(ref, e)) else NoMatch
  }

  /** The fields an order row copies from its document, each with the
      default it takes when the document lacks it: '' for the addresses,
      `None` for the coordinates, 'pending' for `status`. */
  predicate CopiesOrderFields(row: OrderRow, data: Doc) {
    && row.pickupAddress == (if "pickupAddress" in data then data["pickupAddress"] else VStr(""))
    && row.deliveryAddress == (if "deliveryAddress" in data then data["deliveryAddress"] else VStr(""))
    && row.pickupLatitude == (if "pickupLatitude" in data then data["pickupLatitude"] else VNull)
    && row.pickupLongitude == (if "pickupLongitude" in data then data["pickupLongitude"] else VNull)
    && row.deliveryLatitude == (if "deliveryLatitude" in data then data["deliveryLatitude"] else VNull)
    && row.deliveryLongitude == (if "deliveryLongitude" in data then data["deliveryLongitude"] else VNull)
    && row.status == (if "status" in data then data["status"] else VStr("pending"))
  }

  /** The order row built from a document and the outcome of its two
      lookups, or `None` when the order is skipped: no customer resolved
      (no `customerId`, `DoesNotExist`, or several matches), several
      matching drivers, or a `fare` that `float()` rejects. A missing
      driver is allowed. */
  function OrderRowOf(customer: Resolved, driver: Resolved, parseFloat: string -> Option<real>, data: Doc): (r: Option<OrderRow>)
    ensures r.Some? <==>
      && customer.Unique?
      && !driver.Ambiguous?
      && ToFloat(GetOr(data, "fare", VInt(0)), parseFloat).Some?
    ensures r.Some? ==> r.value.customer == customer.key
    ensures r.Some? ==> r.value.driver == (if driver.Unique? then Some(driver.key) else None)
    ensures r.Some? ==> CopiesOrderFields(r.value, data)
    ensures r.Some? ==> Some(r.value.fare) == ToFloat(if "fare" in data then data["fare"] else VInt(0), parseFloat)
  {
    match customer
    case NoMatch => None
    case Ambiguous => None
    case Unique(c) =>
      if driver.Ambiguous? then None
      else match ToFloat(GetOr(data, "fare", VInt(0)), parseFloat)
        case None => None
        case Some(fare) =>
          Some(OrderRow(
            c,
            if driver.Unique? then Some(driver.key) else None,
            GetOr(data, "pickupAddress", VStr("")),
            GetOr(data, "deliveryAddress", VStr("")),
            Get(data, "pickupLatitude"),
            Get(data, "pickupLongitude"),
            Get(data, "deliveryLatitude"),
            Get(data, "deliveryLongitude"),
            GetOr(data, "status", VStr("pending")),
            fare))
  }

  /** The body of the order loop for one document: both lookups against
      the mirror, then the row. */
  function OrderRowFor(customers: Table<CustomerRow>, drivers: Table<DriverRow>, parseFloat: string -> Option<real>): Snapshot -> Option<OrderRow> {
    (d: Snapshot) => OrderRowOf(CustomerOf(customers, d.data), DriverOf(drivers, d.data), parseFloat, d.data)
  }

  /** The row of an order document points at the customer row its
      `customerId` names, by Firebase id or stored `customer_id`, and at
      the driver row its `driverId` names when one matched; both rows are
      in the mirror. */
  lemma OrderRowLinks(customers: Table<CustomerRow>, drivers: Table<DriverRow>, parseFloat: string -> Option<real>, d: Snapshot)
    ensures var r := OrderRowFor(customers, drivers, parseFloat)(d);
      && (r.Some? <==>
           && CustomerOf(customers, d.data).Unique?
           && !DriverOf(drivers, d.data).Ambiguous?
           && ToFloat(GetOr(d.data, "fare", VInt(0)), parseFloat).Some?)
      && (r.Some? ==> LinkedRow(customers, drivers, r.value))
      && (r.Some? ==> (r.value.driver.None? <==> DriverOf(drivers, d.data).NoMatch?))
      && (r.Some? ==> exists i :: 0 <= i < |customers| && customers[i].firebaseId == r.value.customer
                                 && NamesCustomer(Get(d.data, "customerId"), customers[i]))
      && (r.Some? && r.value.driver.Some? ==> exists i :: 0 <= i < |drivers| && drivers[i].firebaseId == r.value.driver.value
                                                     && NamesDriver(Get(d.data, "driverId"), drivers[i]))
  {
  }

  /** `_sync_orders_from_firebase` with the customer and driver lookups
      resolving against the mirror. `errors` counts the skipped orders. */
  function SyncOrdersFromFirebase(db: Db, m: MirrorDb, env: Env): (r: Fetch<Tally<OrderRow>>)
    ensures r.Fault? <==> db.Disconnected?
    ensures db.Connected? && !Reachable(db, OrdersCollection) ==> r == Fetched(Tally(m.orders, 0, 0))
    ensures Reachable(db, OrdersCollection) ==>
      r.value.count + r.value.errors == |Docs(db.store, OrdersCollection)|
  {
    if db.Disconnected? then Fault
    else match Stream(db, OrdersCollection)
      case Fault => Fetched(Tally(m.orders, 0, 0))
      case Fetched(docs) =>
        if |docs| == 0 then Fetched(Tally(m.orders, 0, 0))
        else Fetched(Fold(m.orders, docs, UpsertStep(OrderRowFor(m.customers, m.drivers, env.parseFloat), env.acceptOrder)))
  }

  /** Only orders whose customer resolves are counted; with an empty
      customer mirror no order is. */
  lemma OrdersNeedCustomer(db: Db, m: MirrorDb, env: Env)
    requires Reachable(db, OrdersCollection)
    ensures SyncOrdersFromFirebase(db, m, env).value.count
         <= Count(Docs(db.store, OrdersCollection), (d: Snapshot) => CustomerOf(m.customers, d.data).Unique?)
    ensures |m.customers| == 0 ==> SyncOrdersFromFirebase(db, m, env).value.count == 0
  {
    var docs := Docs(db.store, OrdersCollection);
    var p := (d: Snapshot) => CustomerOf(m.customers, d.data).Unique?;
    var step := UpsertStep(OrderRowFor(m.customers, m.drivers, env.parseFloat), env.acceptOrder);
    forall t', d | step(t', d).Some?
      ensures p(d)
    {
      assert step(t', d) == AcceptAndUpsert(t', d.id, OrderRowFor(m.customers, m.drivers, env.parseFloat)(d), env.acceptOrder);
    }
    FoldCountBound(m.orders, docs, step, p);
    if |m.customers| == 0 {
      CountMonotone(docs, p, (d: Snapshot) => false);
      CountNone(docs);
    }
  }

  /** No document satisfies the everywhere-false predicate. */
  lemma {:induction false} CountNone(s: seq<Snapshot>)
    ensures Count(s, (d: Snapshot) => false) == 0
    decreases |s|
  {
    if |s| > 0 {
      CountNone(s[..|s| - 1]);
    }
  }

  /** An order row points at a customer present in the customer mirror
      and, when it names a driver, at a driver present in the driver
      mirror. */
  ghost predicate LinkedRow(customers: Table<CustomerRow>, drivers: Table<DriverRow>, row: OrderRow) {
    && Find(customers, row.customer).Some?
    && (row.driver.Some? ==> Find(drivers, row.driver.value).Some?)
  }

  ghost predicate OrdersLinked(m: MirrorDb) {
    forall i :: 0 <= i < |m.orders| ==> LinkedRow(m.customers, m.drivers, m.orders[i].fields)
  }

  /** Pulling orders keeps order keys unique and every order linked to
      mirror rows that exist. */
  lemma SyncOrdersKeepsMirrorSound(db: Db, m: MirrorDb, env: Env)
    requires db.Connected?
    requires WellKeyed(m) && OrdersLinked(m)
    ensures var m' := m.(orders := SyncOrdersFromFirebase(db, m, env).value.table);
      WellKeyed(m') && OrdersLinked(m')
  {
    match Stream(db, OrdersCollection)
    case Fault =>
    case Fetched(docs) =>
      var rowOf := OrderRowFor(m.customers, m.drivers, env.parseFloat);
      var step := UpsertStep(rowOf, env.acceptOrder);
      UpsertFoldCount(m.orders, docs, rowOf, env.acceptOrder);
      var linked := (t: Table<OrderRow>) => OrdersLinked(m.(orders := t));
      forall t', d | linked(t') && step(t', d).Some?
        ensures linked(step(t', d).value)
      {
        assert step(t', d) == AcceptAndUpsert(t', d.id, rowOf(d), env.acceptOrder);
        OrderRowLinks(m.customers, m.drivers, env.parseFloat, d);
        var row := rowOf(d).value;
        UpsertKeepsLinked(m, t', d.id, row);
      }
      FoldPreserves(m.orders, docs, step, linked);
  }

  /** Upserting a linked row keeps every order linked. */
  lemma UpsertKeepsLinked(m: MirrorDb, t: Table<OrderRow>, id: string, row: OrderRow)
    requires OrdersLinked(m.(orders := t))
    requires LinkedRow(m.customers, m.drivers, row)
    requires Upsert(t, id, row).Some?
    ensures OrdersLinked(m.(orders := Upsert(t, id, row).value))
  {
    var t' := Upsert(t, id, row).value;
    forall i | 0 <= i < |t'|
      ensures LinkedRow(m.customers, m.drivers, t'[i].fields)
    {
      UpsertRows(t, id, row, i);
    }
  }

  // ---------------------------------------------------------------------
  // Orders as the command is written

  /** The order mapping as written. The lookups build their query with
      `models.Q`, but `models` is never imported. A truthy `customerId` or
      `driverId` raises `NameError`, which the loop's handler swallows;
      without either, no customer is resolved and the order is skipped.
      Every path ends without a row. */
  function OrderRowAsWritten(d: Snapshot): Option<OrderRow> {
    None
  }

  /** `_sync_orders_from_firebase` as written. */
  function SyncOrdersAsWritten(db: Db, m: MirrorDb, env: Env): (r: Fetch<Tally<OrderRow>>)
    ensures r.Fault? <==> db.Disconnected?
    ensures Reachable(db, OrdersCollection) ==>
      r.value.count + r.value.errors == |Docs(db.store, OrdersCollection)|
  {
    if db.Disconnected? then Fault
    else match Stream(db, OrdersCollection)
      case Fault => Fetched(Tally(m.orders, 0, 0))
      case Fetched(docs) =>
        if |docs| == 0 then Fetched(Tally(m.orders, 0, 0))
        else Fetched(Fold(m.orders, docs, UpsertStep(OrderRowAsWritten, env.acceptOrder)))
  }

  /** As written, the order sync never writes an order and always reports
      0, whatever the store and the mirror hold. */
  lemma OrdersAsWrittenSyncNothing(db: Db, m: MirrorDb, env: Env)
    requires db.Connected?
    ensures SyncOrdersAsWritten(db, m, env).value.count == 0
    ensures SyncOrdersAsWritten(db, m, env).value.table == m.orders
  {
    FoldWithoutRows(m.orders, Docs(db.store, OrdersCollection), OrderRowAsWritten, env.acceptOrder);
  }

  /** One order naming the one mirrored customer: the command as written
      skips it, while the corrected lookup links and counts it. */
  lemma OrdersAsWrittenDropsLinkedOrder()
    ensures var customer := Entry("c1", CustomerRowOf(Snapshot("c1", map[]), Clock(0, _ => None)));
      var m := MirrorDb([], [customer], []);
      var order := Snapshot("o1", map["customerId" := VStr("c1")]);
      var db := Connected(Store(map[OrdersCollection := [order]]), {});
      var env := Env(_ => true, _ => true, _ => true, _ => None, _ => true, _ => true, Clock(0, _ => None), None);
      && SyncOrdersAsWritten(db, m, env).value.count == 0
      && SyncOrdersFromFirebase(db, m, env).value.count == 1
  {
    var customer := Entry("c1", CustomerRowOf(Snapshot("c1", map[]), Clock(0, _ => None)));
    var m := MirrorDb([], [customer], []);
    var order := Snapshot("o1", map["customerId" := VStr("c1")]);
    var db := Connected(Store(map[OrdersCollection := [order]]), {});
    var env := Env(_ => true, _ => true, _ => true, _ => None, _ => true, _ => true, Clock(0, _ => None), None);
    OrdersAsWrittenSyncNothing(db, m, env);
    assert Docs(db.store, OrdersCollection) == [order];
    var q := (e: Entry<CustomerRow>) => NamesCustomer(VStr("c1"), e);
    assert [customer][..0] == [];
    assert Resolve([customer], q) == Unique("c1");
    assert OrderRowFor(m.customers, m.drivers, env.parseFloat)(order).Some?;
    assert [order][..0] == [];
  }

  // ---------------------------------------------------------------------
  // Pushing rows

  /** `_sync_drivers_to_firebase` / `_sync_customers_to_firebase`: one
      `save_to_firebase` per mirror row, in table order; a failing push is
      logged and the loop goes on. Returns the number of successful pushes
      and the Firebase ids whose push failed. */
  method PushAll<R>(t: Table<R>, push: Entry<R> -> bool) returns (count: nat, failed: seq<string>)
    ensures count == Count(t, push)
    ensures count + |failed| == |t|
    ensures forall j :: 0 <= j < |failed| ==> exists i :: 0 <= i < |t| && !push(t[i]) && t[i].firebaseId == failed[j]
  {
    count, failed := 0, [];
    for i := 0 to |t|
      invariant count == Count(t[..i], push)
      invariant count + |failed| == i
      invariant forall j :: 0 <= j < |failed| ==> exists k :: 0 <= k < i && !push(t[k]) && t[k].firebaseId == failed[j]
    {
      assert t[..i + 1] == t[..i] + [t[i]];
      CountSnoc(t[..i], t[i], push);
      if push(t[i]) {
        count := count + 1;
      } else {
        failed := failed + [t[i].firebaseId];
      }
    }
    assert t[..|t|] == t;
  }

  // ---------------------------------------------------------------------
  // `handle`

  /** `--model`. */
  datatype Target = DriversOnly | CustomersOnly | OrdersOnly | AllModels

  /** `--direction`. */
  datatype Direction = FromFirebase | ToFirebase | Both

  datatype Kind = DriverKind | CustomerKind | OrderKind

  /** One "Synced N …" / "Would sync N …" line. */
  datatype Report = Report(kind: Kind, toFirebase: bool, dryRun: bool, count: nat)

  /** The mirror after the run, the lines reported, and whether the run
      ended in `CommandError`. */
  datatype Outcome = Outcome(mirror: MirrorDb, reports: seq<Report>, failed: bool)

  predicate Pulls(dir: Direction) {
    dir == FromFirebase || dir == Both
  }

  predicate Pushes(dir: Direction) {
    dir == ToFirebase || dir == Both
  }

  predicate RunsDrivers(target: Target) {
    target == DriversOnly || target == AllModels
  }

  predicate RunsCustomers(target: Target) {
    target == CustomersOnly || target == AllModels
  }

  predicate RunsOrders(target: Target) {
    target == OrdersOnly || target == AllModels
  }

  function Label(r: Report): (Kind, bool) {
    (r.kind, r.toFirebase)
  }

  /** Which kinds and directions the reported lines are about. */
  function Labels(reports: seq<Report>): (l: seq<(Kind, bool)>)
    ensures |l| == |reports|
    ensures forall i :: 0 <= i < |reports| ==> l[i] == Label(reports[i])
  {
    seq(|reports|, i requires 0 <= i < |reports| => Label(reports[i]))
  }

  /** The lines one model's sync reports when nothing fails. */
  function PhasePlan(kind: Kind, dir: Direction): seq<(Kind, bool)> {
    (if Pulls(dir) then [(kind, false)] else []) + (if Pushes(dir) then [(kind, true)] else [])
  }

  /** Orders are only ever pulled. */
  function OrdersPlan(dir: Direction): seq<(Kind, bool)> {
    if Pulls(dir) then [(OrderKind, false)] else []
  }

  /** The lines a run reports when nothing fails: drivers, customers,
      orders, each when selected. */
  function Plan(target: Target, dir: Direction): seq<(Kind, bool)> {
    (if RunsDrivers(target) then PhasePlan(DriverKind, dir) else [])
    + (if RunsCustomers(target) then PhasePlan(CustomerKind, dir) else [])
    + (if RunsOrders(target) then OrdersPlan(dir) else [])
  }

  /** The faults that end a run in `CommandError`: no client; a `Drivers`
      stream that raises, at its start or part way, whenever drivers are
      pulled; a failing `Customers` or `Orders` stream only in a dry run,
      because the real pulls of those collections swallow the fault. */
  predicate FailsOn(db: Db, target: Target, dir: Direction, dryRun: bool, env: Env) {
    || db.Disconnected?
    || (Pulls(dir) && RunsDrivers(target) && DriversStreamBreaks(db, env))
    || (Pulls(dir) && dryRun && RunsCustomers(target) && !Reachable(db, CustomersCollection))
    || (Pulls(dir) && dryRun && RunsOrders(target) && !Reachable(db, OrdersCollection))
  }

  /** What one model's sync does to the run: on failure nothing is
      reported; otherwise it reports the planned lines, each marked with
      the run's dry-run flag; a dry run, or a run that does not pull,
      leaves the mirror alone. What a failed phase writes is each phase's
      own contract. */
  ghost predicate PhaseDone(o: Outcome, r: Outcome, plan: seq<(Kind, bool)>, pulls: bool, dryRun: bool) {
    && (r.failed ==> r.reports == o.reports)
    && (!r.failed ==> Labels(r.reports) == Labels(o.reports) + plan)
    && |o.reports| <= |r.reports|
    && r.reports[..|o.reports|] == o.reports
    && (forall i :: |o.reports| <= i < |r.reports| ==> r.reports[i].dryRun == dryRun)
    && (dryRun || !pulls ==> r.mirror == o.mirror)
  }

  function Emit(o: Outcome, kind: Kind, toFirebase: bool, dryRun: bool, count: nat): (r: Outcome)
    ensures r.mirror == o.mirror && r.failed == o.failed
    ensures r.reports == o.reports + [Report(kind, toFirebase, dryRun, count)]
    ensures Labels(r.reports) == Labels(o.reports) + [(kind, toFirebase)]
  {
    o.(reports := o.reports + [Report(kind, toFirebase, dryRun, count)])
  }

  /** `_sync_drivers`. A dry run only counts documents or mirror rows; its
      count materialises the whole stream, so a break part way fails it
      too. A real pull that raises part way has already written the rows
      of the documents yielded before the break. */
  function SyncDriversPhase(db: Db, o: Outcome, dir: Direction, dryRun: bool, env: Env): (r: Outcome)
    requires !o.failed
    ensures PhaseDone(o, r, PhasePlan(DriverKind, dir), Pulls(dir), dryRun)
    ensures r.failed <==> Pulls(dir) && DriversStreamBreaks(db, env)
    ensures r.failed && !Reachable(db, DriversCollection) ==> r.mirror == o.mirror
    ensures Pulls(dir) && !dryRun ==>
      r.mirror.drivers == Fold(o.mirror.drivers, DriversYield(db, env), UpsertStep(DriverRowFor(env.clock), env.acceptDriver)).table
    ensures r.mirror.customers == o.mirror.customers && r.mirror.orders == o.mirror.orders
  {
    var pulled :=
      if !Pulls(dir) then o
      else if dryRun then
        if DriversStreamBreaks(db, env) then o.(failed := true)
        else Emit(o, DriverKind, false, true, |Docs(db.store, DriversCollection)|)
      else
        var pull := SyncDriversFromFirebase(db, o.mirror.drivers, env);
        var written := o.(mirror := o.mirror.(drivers := pull.tally.table));
        if pull.raised then written.(failed := true)
        else Emit(written, DriverKind, false, false, pull.tally.count);
    if pulled.failed || !Pushes(dir) then pulled
    else
      var rows := pulled.mirror.drivers;
      Emit(pulled, DriverKind, true, dryRun, if dryRun then |rows| else Count(rows, env.pushDriver))
  }

  /** `_sync_customers`. The real pull swallows a failing stream; the
      dry-run count does not. */
  function SyncCustomersPhase(db: Db, o: Outcome, dir: Direction, dryRun: bool, env: Env): (r: Outcome)
    requires !o.failed && db.Connected?
    ensures PhaseDone(o, r, PhasePlan(CustomerKind, dir), Pulls(dir), dryRun)
    ensures r.failed ==> r.mirror == o.mirror
    ensures r.failed <==> Pulls(dir) && dryRun && !Reachable(db, CustomersCollection)
    ensures r.mirror.drivers == o.mirror.drivers && r.mirror.orders == o.mirror.orders
  {
    var pulled :=
      if !Pulls(dir) then o
      else if dryRun then
        match Stream(db, CustomersCollection)
        case Fault => o.(failed := true)
        case Fetched(docs) => Emit(o, CustomerKind, false, true, |docs|)
      else
        var tally := SyncCustomersFromFirebase(db, o.mirror.customers, env).value;
        Emit(o.(mirror := o.mirror.(customers := tally.table)), CustomerKind, false, false, tally.count);
    if pulled.failed || !Pushes(dir) then pulled
    else
      var rows := pulled.mirror.customers;
      Emit(pulled, CustomerKind, true, dryRun, if dryRun then |rows| else Count(rows, env.pushCustomer))
  }

  /** `_sync_orders`: orders are only ever pulled. */
  function SyncOrdersPhase(db: Db, o: Outcome, dir: Direction, dryRun: bool, env: Env): (r: Outcome)
    requires !o.failed && db.Connected?
    ensures PhaseDone(o, r, OrdersPlan(dir), Pulls(dir), dryRun)
    ensures r.failed ==> r.mirror == o.mirror
    ensures !Pulls(dir) ==> r == o
    ensures r.failed <==> Pulls(dir) && dryRun && !Reachable(db, OrdersCollection)
    ensures r.mirror.drivers == o.mirror.drivers && r.mirror.customers == o.mirror.customers
  {
    if !Pulls(dir) then o
    else if dryRun then
      match Stream(db, OrdersCollection)
      case Fault => o.(failed := true)
      case Fetched(docs) => Emit(o, OrderKind, false, true, |docs|)
    else
      var tally := SyncOrdersFromFirebase(db, o.mirror, env).value;
      Emit(o.(mirror := o.mirror.(orders := tally.table)), OrderKind, false, false, tally.count)
  }

  /** `handle`: a missing client fails the run before anything is synced;
      then drivers, customers and orders are synced in that order, each
      when selected, and the first failure ends the run. */
  function Handle(db: Db, m: MirrorDb, target: Target, dir: Direction, dryRun: bool, env: Env): (r: Outcome)
    ensures r.failed <==> FailsOn(db, target, dir, dryRun, env)
    ensures r.failed ==> r.mirror.customers == m.customers && r.mirror.orders == m.orders
    ensures dryRun || !Pulls(dir) ==> r.mirror == m
    ensures !RunsDrivers(target) ==> r.mirror.drivers == m.drivers
    ensures !RunsCustomers(target) ==> r.mirror.customers == m.customers
    ensures !RunsOrders(target) ==> r.mirror.orders == m.orders
  {
    if db.Disconnected? then Outcome(m, [], true)
    else
      var o0 := Outcome(m, [], false);
      var o1 := if RunsDrivers(target) then SyncDriversPhase(db, o0, dir, dryRun, env) else o0;
      var o2 := if RunsCustomers(target) && !o1.failed then SyncCustomersPhase(db, o1, dir, dryRun, env) else o1;
      if RunsOrders(target) && !o2.failed then SyncOrdersPhase(db, o2, dir, dryRun, env) else o2
  }

  /** The lines `handle` reports: all planned lines when the run
      succeeds, a prefix of them when it fails. */
  lemma HandleReports(db: Db, m: MirrorDb, target: Target, dir: Direction, dryRun: bool, env: Env)
    ensures var r := Handle(db, m, target, dir, dryRun, env);
      && (!r.failed ==> Labels(r.reports) == Plan(target, dir))
      && Labels(r.reports) <= Plan(target, dir)
  {
    if db.Connected? {
      var o0 := Outcome(m, [], false);
      var o1 := if RunsDrivers(target) then SyncDriversPhase(db, o0, dir, dryRun, env) else o0;
      var o2 := if RunsCustomers(target) && !o1.failed then SyncCustomersPhase(db, o1, dir, dryRun, env) else o1;
      var o3 := if RunsOrders(target) && !o2.failed then SyncOrdersPhase(db, o2, dir, dryRun, env) else o2;
      var p1 := if RunsDrivers(target) then PhasePlan(DriverKind, dir) else [];
      var p2 := if RunsCustomers(target) then PhasePlan(CustomerKind, dir) else [];
      var p3 := if RunsOrders(target) then OrdersPlan(dir) else [];
      DriversReports(db, o0, target, dir, dryRun, env);
      CustomersReports(db, o1, p1, target, dir, dryRun, env);
      OrdersReports(db, o2, p1, p2, target, dir, dryRun, env);
      assert Handle(db, m, target, dir, dryRun, env) == o3;
    }
  }

  /** The drivers step of `handle` starts the planned lines. */
  lemma DriversReports(db: Db, o: Outcome, target: Target, dir: Direction, dryRun: bool, env: Env)
    requires !o.failed && o.reports == []
    ensures var r := if RunsDrivers(target) then SyncDriversPhase(db, o, dir, dryRun, env) else o;
      var plan := if RunsDrivers(target) then PhasePlan(DriverKind, dir) else [];
      Labels(r.reports) <= plan && (!r.failed ==> Labels(r.reports) == plan)
  {
    var r := if RunsDrivers(target) then SyncDriversPhase(db, o, dir, dryRun, env) else o;
    var plan := if RunsDrivers(target) then PhasePlan(DriverKind, dir) else [];
    PlanExtends(o, r, [], plan, Pulls(dir), dryRun);
  }

  /** The customers step of `handle` extends the planned lines. */
  lemma CustomersReports(db: Db, o: Outcome, p1: seq<(Kind, bool)>, target: Target, dir: Direction, dryRun: bool, env: Env)
    requires db.Connected?
    requires Labels(o.reports) <= p1 && (!o.failed ==> Labels(o.reports) == p1)
    ensures var r := if RunsCustomers(target) && !o.failed then SyncCustomersPhase(db, o, dir, dryRun, env) else o;
      var plan := if RunsCustomers(target) then PhasePlan(CustomerKind, dir) else [];
      Labels(r.reports) <= p1 + plan && (!r.failed ==> Labels(r.reports) == p1 + plan)
  {
    var r := if RunsCustomers(target) && !o.failed then SyncCustomersPhase(db, o, dir, dryRun, env) else o;
    var plan := if RunsCustomers(target) then PhasePlan(CustomerKind, dir) else [];
    PlanExtends(o, r, p1, plan, Pulls(dir), dryRun);
  }

  /** The orders step of `handle` completes the planned lines. */
  lemma OrdersReports(db: Db, o: Outcome, p1: seq<(Kind, bool)>, p2: seq<(Kind, bool)>, target: Target, dir: Direction, dryRun: bool, env: Env)
    requires db.Connected?
    requires Labels(o.reports) <= p1 + p2 && (!o.failed ==> Labels(o.reports) == p1 + p2)
    ensures var r := if RunsOrders(target) && !o.failed then SyncOrdersPhase(db, o, dir, dryRun, env) else o;
      var plan := if RunsOrders(target) then OrdersPlan(dir) else [];
      Labels(r.reports) <= p1 + p2 + plan && (!r.failed ==> Labels(r.reports) == p1 + p2 + plan)
  {
    var r := if RunsOrders(target) && !o.failed then SyncOrdersPhase(db, o, dir, dryRun, env) else o;
    var plan := if RunsOrders(target) then OrdersPlan(dir) else [];
    PlanExtends(o, r, p1 + p2, plan, Pulls(dir), dryRun);
  }

  /** A phase that runs after a run matching `before` leaves a run
      matching `before + plan`; a skipped or failed phase leaves a
      prefix. */
  lemma PlanExtends(o: Outcome, r: Outcome, before: seq<(Kind, bool)>, plan: seq<(Kind, bool)>, pulls: bool, dryRun: bool)
    requires Labels(o.reports) <= before && (!o.failed ==> Labels(o.reports) == before)
    requires !o.failed && r != o ==> PhaseDone(o, r, plan, pulls, dryRun)
    requires !o.failed && r == o ==> plan == []
    requires o.failed ==> r == o
    ensures Labels(r.reports) <= before + plan && (!r.failed ==> Labels(r.reports) == before + plan)
  {
    assert before <= before + plan;
  }

  /** Every line `handle` reports carries the run's dry-run flag. */
  lemma HandleReportsDryRun(db: Db, m: MirrorDb, target: Target, dir: Direction, dryRun: bool, env: Env)
    ensures var r := Handle(db, m, target, dir, dryRun, env);
      forall i :: 0 <= i < |r.reports| ==> r.reports[i].dryRun == dryRun
  {
  }

  // ---------------------------------------------------------------------
  // What a whole run does to the mirror

  /** Growing the driver and customer mirrors keeps every order linked. */
  lemma LinkedWhenParentsGrow(m: MirrorDb, m': MirrorDb)
    requires OrdersLinked(m)
    requires m'.orders == m.orders
    requires forall k :: Find(m.customers, k).Some? ==> Find(m'.customers, k).Some?
    requires forall k :: Find(m.drivers, k).Some? ==> Find(m'.drivers, k).Some?
    ensures OrdersLinked(m')
  {
    forall i | 0 <= i < |m'.orders|
      ensures LinkedRow(m'.customers, m'.drivers, m'.orders[i].fields)
    {
      assert LinkedRow(m.customers, m.drivers, m.orders[i].fields);
    }
  }

  lemma DriversPhaseSound(db: Db, o: Outcome, dir: Direction, dryRun: bool, env: Env)
    requires !o.failed && WellKeyed(o.mirror) && OrdersLinked(o.mirror)
    ensures WellKeyed(SyncDriversPhase(db, o, dir, dryRun, env).mirror)
    ensures OrdersLinked(SyncDriversPhase(db, o, dir, dryRun, env).mirror)
  {
    if Pulls(dir) && !dryRun {
      var t := o.mirror.drivers;
      var docs := DriversYield(db, env);
      var t' := Fold(t, docs, UpsertStep(DriverRowFor(env.clock), env.acceptDriver)).table;
      assert SyncDriversPhase(db, o, dir, dryRun, env).mirror == o.mirror.(drivers := t');
      UpsertFoldCount(t, docs, DriverRowFor(env.clock), env.acceptDriver);
      forall k | Find(t, k).Some?
        ensures Find(t', k).Some?
      {
        UpsertFoldKeepsKeys(t, docs, DriverRowFor(env.clock), env.acceptDriver, k);
      }
      LinkedWhenParentsGrow(o.mirror, o.mirror.(drivers := t'));
    }
  }

  lemma CustomersPhaseSound(db: Db, o: Outcome, dir: Direction, dryRun: bool, env: Env)
    requires !o.failed && db.Connected? && WellKeyed(o.mirror) && OrdersLinked(o.mirror)
    ensures WellKeyed(SyncCustomersPhase(db, o, dir, dryRun, env).mirror)
    ensures OrdersLinked(SyncCustomersPhase(db, o, dir, dryRun, env).mirror)
  {
    if Pulls(dir) && !dryRun {
      var t := o.mirror.customers;
      var t' := SyncCustomersFromFirebase(db, t, env).value.table;
      assert SyncCustomersPhase(db, o, dir, dryRun, env).mirror == o.mirror.(customers := t');
      if Reachable(db, CustomersCollection) {
        var docs := Docs(db.store, CustomersCollection);
        UpsertFoldCount(t, docs, CustomerRowFor(env.clock), env.acceptCustomer);
        forall k | Find(t, k).Some?
          ensures Find(t', k).Some?
        {
          UpsertFoldKeepsKeys(t, docs, CustomerRowFor(env.clock), env.acceptCustomer, k);
        }
        LinkedWhenParentsGrow(o.mirror, o.mirror.(customers := t'));
      }
    }
  }

  /** A run, whatever its options and faults, keeps the mirror sound: one
      row per Firebase document in each table, and every order pointing
      at a customer (and driver) that the mirror holds. */
  lemma HandleKeepsMirrorSound(db: Db, m: MirrorDb, target: Target, dir: Direction, dryRun: bool, env: Env)
    requires WellKeyed(m) && OrdersLinked(m)
    ensures WellKeyed(Handle(db, m, target, dir, dryRun, env).mirror)
    ensures OrdersLinked(Handle(db, m, target, dir, dryRun, env).mirror)
  {
    if db.Connected? {
      var o0 := Outcome(m, [], false);
      var o1 := if RunsDrivers(target) then SyncDriversPhase(db, o0, dir, dryRun, env) else o0;
      if RunsDrivers(target) {
        DriversPhaseSound(db, o0, dir, dryRun, env);
      }
      var o2 := if RunsCustomers(target) && !o1.failed then SyncCustomersPhase(db, o1, dir, dryRun, env) else o1;
      if RunsCustomers(target) && !o1.failed {
        CustomersPhaseSound(db, o1, dir, dryRun, env);
      }
      if RunsOrders(target) && !o2.failed && Pulls(dir) && !dryRun {
        SyncOrdersKeepsMirrorSound(db, o2.mirror, env);
        assert SyncOrdersPhase(db, o2, dir, dryRun, env).mirror
            == o2.mirror.(orders := SyncOrdersFromFirebase(db, o2.mirror, env).value.table);
      }
    }
  }

  /** A dry run of everything in both directions reports the size of each
      collection and of each pushable mirror table, and changes nothing. */
  lemma HandleDryRunCounts(db: Db, m: MirrorDb, env: Env)
    requires !DriversStreamBreaks(db, env) && Reachable(db, CustomersCollection) && Reachable(db, OrdersCollection)
    ensures Handle(db, m, AllModels, Both, true, env) == Outcome(m, [
      Report(DriverKind, false, true, |Docs(db.store, DriversCollection)|),
      Report(DriverKind, true, true, |m.drivers|),
      Report(CustomerKind, false, true, |Docs(db.store, CustomersCollection)|),
      Report(CustomerKind, true, true, |m.customers|),
      Report(OrderKind, false, true, |Docs(db.store, OrdersCollection)|)], false)
  {
  }

  /** Pulling drivers alone fails exactly when the stream raises, at its
      start or part way; otherwise it reports the number of documents the
      ORM accepts. Either way each key holds the row of its document among
      those the stream yielded, so a break part way leaves the rows written
      before it. */
  lemma HandleDriversPull(db: Db, m: MirrorDb, env: Env)
    requires db.Connected? && Valid(db.store) && UniqueKeys(m.drivers)
    ensures var r := Handle(db, m, DriversOnly, FromFirebase, false, env);
      && (r.failed <==> DriversStreamBreaks(db, env))
      && (!r.failed ==> r.reports == [Report(DriverKind, false, false,
           Count(Docs(db.store, DriversCollection), Accepted(DriverRowFor(env.clock), env.acceptDriver)))])
      && (r.failed ==> r.reports == [])
      && r.mirror.customers == m.customers && r.mirror.orders == m.orders
      && forall k :: (Mirror.Lookup(r.mirror.drivers, k)
           == ExpectedLookup(m.drivers, DriversYield(db, env), DriverRowFor(env.clock), env.acceptDriver, k))
  {
    SyncDriversFromFirebaseSpec(db, m.drivers, env);
  }

  /** A `Drivers` stream whose connection breaks after the first of two
      documents: the run ends in `CommandError`, yet the first driver's
      row is already in the mirror. */
  lemma DriversBreakKeepsWrittenRows(env: Env)
    ensures var d1 := Snapshot("d1", map[]);
      var db := Connected(Store(map[DriversCollection := [d1, Snapshot("d2", map[])]]), {});
      var env0 := env.(acceptDriver := _ => true, driversCut := Some(1));
      var r := Handle(db, MirrorDb([], [], []), DriversOnly, FromFirebase, false, env0);
      && r.failed
      && r.mirror.drivers == [Entry("d1", DriverRowOf(d1, env.clock))]
  {
    var d1 := Snapshot("d1", map[]);
    var docs := [d1, Snapshot("d2", map[])];
    var db := Connected(Store(map[DriversCollection := docs]), {});
    var env0 := env.(acceptDriver := _ => true, driversCut := Some(1));
    assert Reachable(db, DriversCollection) && Docs(db.store, DriversCollection) == docs;
    assert DriversYield(db, env0) == [d1];
    assert [d1][..0] == [];
    var row := DriverRowOf(d1, env.clock);
    var empty: Table<DriverRow> := [];
    assert Find(empty, "d1").None?;
    assert empty + [Entry("d1", row)] == [Entry("d1", row)];
    var step := UpsertStep(DriverRowFor(env0.clock), env0.acceptDriver);
    assert Fold(empty, [d1][..0], step) == Tally(empty, 0, 0);
    assert DriverRowFor(env0.clock)(d1) == Some(row);
    assert env0.acceptDriver(row);
    assert AcceptAndUpsert(empty, "d1", Some(row), env0.acceptDriver) == Some([Entry("d1", row)]);
    assert step(empty, d1) == Some([Entry("d1", row)]);
    assert Fold(empty, [d1], step).table == [Entry("d1", row)];
  }

  /** Pushing drivers alone writes nothing to the mirror and reports the
      pushes that succeed, as `PushAll` counts them. */
  lemma HandleDriversPush(db: Db, m: MirrorDb, env: Env)
    requires db.Connected?
    ensures Handle(db, m, DriversOnly, ToFirebase, false, env)
         == Outcome(m, [Report(DriverKind, true, false, Count(m.drivers, env.pushDriver))], false)
  {
  }
}

=== FILE: values.dfy ===
/** The dynamic values that documents hold, with the handful of Python
    operations the dashboard applies to them: truthiness, `dict.get`,
    `str()` and `float()`. */
module Values {
  import opened Basics

  /** A document field value as the store hands it over. */
  datatype Value =
    | VNull
    | VBool(b: bool)
    | VInt(i: int)
    | VFloat(f: real)
    | VStr(s: string)
    | VList(items: seq<Value>)
    | VMap(fields: map<string, Value>)
    | VGeoPoint(latitude: real, longitude: real)

  /** A document's contents (Python `dict` from `to_dict()`). */
  type Doc = map<string, Value>

  /** Python truthiness (`if v:` / `not v`). */
  predicate Truthy(v: Value) {
    match v
    case VNull => false
    case VBool(b) => b
    case VInt(i) => i != 0
    case VFloat(f) => f != 0.0
    case VStr(s) => |s| > 0
    case VList(items) => |items| > 0
    case VMap(fields) => |fields| > 0
    case VGeoPoint(_, _) => true
  }

  /** Reading a key with a default for a missing key. */
  function GetOr(d: Doc, k: string, default: Value): Value {
    if k in d then d[k] else default
  }

  /** Reading a key: a missing key reads as `None`. */
  function Get(d: Doc, k: string): Value {
    GetOr(d, k, VNull)
  }

  /** Python's `str()` as used inside the f-strings that build names and
      titles. Floats, lists, dicts and geo points are rendered by a fixed
      placeholder; names are strings in practice. */
  function PyStr(v: Value): string {
    match v
    case VNull => "None"
    case VBool(b) => if b then "True" else "False"
    case VInt(i) => if i < 0 then "-" + Decimal(-i) else Decimal(i)
    case VStr(s) => s
    case VFloat(_) => "<float>"
    case VList(_) => "<list>"
    case VMap(_) => "<dict>"
    case VGeoPoint(_, _) => "<GeoPoint>"
  }

  /** Python's `float()`; `None` stands for the `ValueError`/`TypeError`
      it raises. Parsing a string is delegated to `parse`. */
  function ToFloat(v: Value, parse: string -> Option<real>): Option<real> {
    match v
    case VInt(i) => Some(i as real)
    case VFloat(f) => Some(f)
    case VBool(b) => Some(if b then 1.0 else 0.0)
    case VStr(s) => parse(s)
    case _ => None
  }
}

=== FILE: views.dfy ===
/** The dashboard views' own logic: the home page counters, the driver list
    counter, the driver detail page's vehicle pick, the vehicle status
    classifier, and the request checks of the AJAX update and delete
    endpoints. Rendering, redirects and JSON encoding are represented by
    plain datatypes. */
module Views {
  import opened Basics
  import opened Values
  import opened DocStore
  import opened FirebaseService

  /** A flash or JSON message: a fixed text, or `prefix + str(e)` for a
      caught exception whose text the model does not track. */
  datatype Message = Text(text: string) | Raised(prefix: string)

  // ---------------------------------------------------------------------
  // home

  datatype HomeContext = HomeContext(
    totalDrivers: int, activeDrivers: int, offlineDrivers: int,
    totalCustomers: int, pendingDrivers: int, approvedDrivers: int)

  /** The offline driver count: total minus active, clamped at zero. */
  function Offline(total: int, active: int): (r: int)
    ensures r >= 0
    ensures r >= total - active
    ensures r == 0 || r == total - active
  {
    if total - active > 0 then total - active else 0
  }

  /** `home`: the offline count is never clamped, because the stats it
      reads satisfy `active <= total`; it is the number of drivers whose
      status is not `'active'`, online or not. */
  function Home(db: Db): (r: HomeContext)
    ensures r.totalDrivers == |ListRecords(db, DriversCollection)|
    ensures r.activeDrivers == Count(ListRecords(db, DriversCollection), HasActiveStatus)
    ensures r.offlineDrivers == r.totalDrivers - r.activeDrivers
    ensures r.offlineDrivers == Count(ListRecords(db, DriversCollection), LacksActiveStatus)
    ensures r.pendingDrivers == Count(ListRecords(db, DriversCollection), IsPending)
    ensures r.approvedDrivers == Count(ListRecords(db, DriversCollection), IsApproved)
    ensures r.pendingDrivers + r.approvedDrivers == r.totalDrivers
    ensures r.totalCustomers == |ListRecords(db, CustomersCollection)|
  {
    var ds := DriversStats(db);
    var cs := CustomersStats(db);
    HomeContext(ds.total, ds.active, Offline(ds.total, ds.active), cs.total, ds.pending, ds.approved)
  }

  // ---------------------------------------------------------------------
  // drivers_management

  /** The driver's `isDriverOnline`, defaulting to false, is truthy. */
  predicate IsOnline(d: Doc) {
    Truthy(GetOr(d, "isDriverOnline", VBool(false)))
  }

  predicate IsOffline(d: Doc) {
    !IsOnline(d)
  }

  datatype DriversPage = DriversPage(drivers: seq<Doc>, driversCount: nat, activeDrivers: nat)

  /** `drivers_management`: here "active" means online, unlike the
      dashboard stats. */
  function DriversManagement(db: Db): (r: DriversPage)
    ensures r.drivers == ListRecords(db, DriversCollection)
    ensures r.driversCount == |r.drivers|
    ensures r.activeDrivers <= r.driversCount
    ensures r.activeDrivers + Count(r.drivers, IsOffline) == r.driversCount
  {
    var drivers := ListRecords(db, DriversCollection);
    CountComplement(drivers, IsOnline, IsOffline);
    DriversPage(drivers, |drivers|, Count(drivers, IsOnline))
  }

  // ---------------------------------------------------------------------
  // driver_detail

  datatype DetailPage =
    | Redirect(target: string, message: Message)
    | Rendered(driver: Doc, documents: Option<Doc>, vehicle: Option<Doc>, title: string)

  /** A vehicle document whose `userID` is the given driver key. */
  predicate OwnedBy(s: Snapshot, driverId: string) {
    "userID" in s.data && s.data["userID"] == VStr(driverId)
  }

  /** `k` is the first vehicle, in stream order, owned by the driver. */
  predicate FirstOwnedAt(docs: Collection, driverId: string, k: int) {
    && 0 <= k < |docs|
    && OwnedBy(docs[k], driverId)
    && forall j :: 0 <= j < k ==> !OwnedBy(docs[j], driverId)
  }

  /** `driver_detail`: redirects when the driver cannot be read; otherwise
      shows the driver, the driver's documents, and the first vehicle whose
      `userID` matches the driver key, or none. */
  function DriverDetail(db: Db, driverId: string): (r: DetailPage)
    ensures RecordById(db, DriversCollection, VStr(driverId)).None? ==>
      r == Redirect("drivers_management", Text("Driver not found"))
    ensures r.Rendered? <==>
      RecordById(db, DriversCollection, VStr(driverId)).Some? && Reachable(db, VehiclesCollection)
    ensures r.Rendered? ==> r.driver == RecordById(db, DriversCollection, VStr(driverId)).value
    ensures r.Rendered? ==> r.documents == DriverDocuments(db, VStr(driverId))
    ensures r.Rendered? && r.vehicle.Some? ==>
      exists k :: FirstOwnedAt(Docs(db.store, VehiclesCollection), driverId, k)
        && r.vehicle.value == WithId(Docs(db.store, VehiclesCollection)[k].data, Docs(db.store, VehiclesCollection)[k].id)
    ensures r.Rendered? && r.vehicle.None? ==>
      forall k :: 0 <= k < |Docs(db.store, VehiclesCollection)| ==> !OwnedBy(Docs(db.store, VehiclesCollection)[k], driverId)
  {
    var driver := RecordById(db, DriversCollection, VStr(driverId));
    if driver.None? || |driver.value| == 0 then Redirect("drivers_management", Text("Driver not found"))
    else
      var documents := DriverDocuments(db, VStr(driverId));
      match Where(db, VehiclesCollection, "userID", Get(driver.value, "id"))
      case Fault => Redirect("drivers_management", Raised("Error loading driver: "))
      case Fetched(matches) =>
        var vehicle := if |matches| == 0 then None else Some(WithId(matches[0].data, matches[0].id));
        var title := "Driver Details - " + PyStr(GetOr(driver.value, "firstName", VStr("")))
                     + " " + PyStr(GetOr(driver.value, "lastName", VStr("")));
        FirstMatchIsFirstOwned(Docs(db.store, VehiclesCollection), driverId);
        Rendered(driver.value, documents, vehicle, title)
  }

  /** The equality query's first hit is the first owned vehicle. */
  lemma {:induction false} FirstMatchIsFirstOwned(docs: Collection, driverId: string)
    ensures |Matching(docs, "userID", VStr(driverId))| == 0 <==>
      forall k :: 0 <= k < |docs| ==> !OwnedBy(docs[k], driverId)
    ensures |Matching(docs, "userID", VStr(driverId))| > 0 ==>
      exists k :: FirstOwnedAt(docs, driverId, k) && Matching(docs, "userID", VStr(driverId))[0] == docs[k]
    decreases |docs|
  {
    if |docs| > 0 {
      FirstMatchIsFirstOwned(docs[1..], driverId);
      if OwnedBy(docs[0], driverId) {
        assert FirstOwnedAt(docs, driverId, 0);
      } else {
        assert Matching(docs, "userID", VStr(driverId)) == Matching(docs[1..], "userID", VStr(driverId));
        if |Matching(docs[1..], "userID", VStr(driverId))| > 0 {
          var k :| FirstOwnedAt(docs[1..], driverId, k)
            && Matching(docs[1..], "userID", VStr(driverId))[0] == docs[1..][k];
          assert FirstOwnedAt(docs, driverId, k + 1);
        } else {
          forall k | 0 <= k < |docs|
            ensures !OwnedBy(docs[k], driverId)
          {
            if k > 0 {
              assert docs[k] == docs[1..][k - 1];
            }
          }
        }
      }
    }
  }

  // ---------------------------------------------------------------------
  // vehicle_management

  /** The driver a vehicle's `userID` points to, looked up only when the
      `userID` is truthy. */
  function LinkedDriver(db: Db, vehicle: Doc): Option<Doc> {
    var driverId := Get(vehicle, "userID");
    if Truthy(driverId) then RecordById(db, DriversCollection, driverId) else None
  }

  /** `if driver:`: a returned record is a non-empty dict. */
  predicate DriverPresent(driver: Option<Doc>) {
    driver.Some? && |driver.value| > 0
  }

  /** The driver's online flag, false when there is no driver. */
  predicate DriverOnline(driver: Option<Doc>) {
    DriverPresent(driver) && IsOnline(driver.value)
  }

  /** The `driver_name` shown next to a vehicle. */
  function DriverName(driver: Option<Doc>): (r: string)
    ensures !DriverPresent(driver) ==> r == "Unknown Driver"
    ensures DriverPresent(driver) && "firstName" !in driver.value && "lastName" !in driver.value ==>
      r == "Unknown Driver"
    ensures DriverPresent(driver) && Get(driver.value, "firstName").VStr? && Get(driver.value, "lastName").VStr? ==>
      r == Get(driver.value, "firstName").s + " " + Get(driver.value, "lastName").s
  {
    if DriverPresent(driver) then
      PyStr(GetOr(driver.value, "firstName", VStr("Unknown"))) + " "
      + PyStr(GetOr(driver.value, "lastName", VStr("Driver")))
    else "Unknown Driver"
  }

  const PendingLabel := "Pending Approval"
  const ApprovedLabel := "Approved"
  const ActiveLabel := "Active"

  predicate IsPendingRow(row: Doc) { Get(row, "status") == VStr(PendingLabel) }
  predicate IsApprovedRow(row: Doc) { Get(row, "status") == VStr(ApprovedLabel) }
  predicate IsActiveRow(row: Doc) { Get(row, "status") == VStr(ActiveLabel) }

  /** What `vehicle_management` promises of one processed vehicle: exactly
      one of the three statuses, chosen from the vehicle's approval and its
      driver's online flag, the driver name and id added, nothing else
      changed. */
  ghost predicate Classified(db: Db, vehicle: Doc, row: Doc) {
    var driver := LinkedDriver(db, vehicle);
    && row - {"driver_name", "driver_id", "status"} == vehicle - {"driver_name", "driver_id", "status"}
    && "driver_name" in row && row["driver_name"] == VStr(DriverName(driver))
    // `driver_id` is always set, to the vehicle's `userID` whether or not
    // a driver matches it; `Get` reads a missing `userID` as `None`, as the
    // view does.
    && "driver_id" in row && row["driver_id"] == Get(vehicle, "userID")
    && (IsPendingRow(row) <==> !IsApproved(vehicle))
    && (IsActiveRow(row) <==> IsApproved(vehicle) && DriverOnline(driver))
    && (IsApprovedRow(row) <==> IsApproved(vehicle) && !DriverOnline(driver))
  }

  datatype VehiclePage = VehiclePage(vehicles: seq<Doc>, pendingCount: nat, approvedCount: nat, activeCount: nat)

  /** The body of `vehicle_management`'s loop for one vehicle: adds the
      driver name and id, then sets the status. */
  method ProcessVehicle(db: Db, vehicle: Doc) returns (row: Doc)
    ensures Classified(db, vehicle, row)
  {
    var driverId := Get(vehicle, "userID");
    var driver := if Truthy(driverId) then RecordById(db, DriversCollection, driverId) else None;
    row := vehicle["driver_name" := VStr(DriverName(driver))];
    row := row["driver_id" := driverId];
    if !IsApproved(row) {
      row := row["status" := VStr(PendingLabel)];
    } else {
      row := row["status" := VStr(ApprovedLabel)];
      if DriverPresent(driver) && IsOnline(driver.value) {
        row := row["status" := VStr(ActiveLabel)];
      }
    }
    assert row - {"driver_name", "driver_id", "status"} == vehicle - {"driver_name", "driver_id", "status"};
  }

  /** The status a classified row carries, as the loop's counters see it. */
  lemma ClassifiedStatus(db: Db, vehicle: Doc, row: Doc, online: bool)
    requires Classified(db, vehicle, row)
    requires online == DriverOnline(LinkedDriver(db, vehicle))
    ensures IsPendingRow(row) == !IsApproved(vehicle)
    ensures IsActiveRow(row) == (IsApproved(vehicle) && online)
    ensures IsApprovedRow(row) == (IsApproved(vehicle) && !online)
  {
  }

  /** The first `|processed|` vehicles are classified into `processed`. */
  ghost predicate ClassifiedPrefix(db: Db, vehicles: seq<Doc>, processed: seq<Doc>) {
    && |processed| <= |vehicles|
    && forall j :: 0 <= j < |processed| ==> Classified(db, vehicles[j], processed[j])
  }

  lemma ExtendClassified(db: Db, vehicles: seq<Doc>, processed: seq<Doc>, row: Doc)
    requires |processed| < |vehicles|
    requires ClassifiedPrefix(db, vehicles, processed)
    requires Classified(db, vehicles[|processed|], row)
    ensures ClassifiedPrefix(db, vehicles, processed + [row])
  {
    forall j | 0 <= j < |processed| + 1
      ensures Classified(db, vehicles[j], (processed + [row])[j])
    {
      if j < |processed| {
        assert (processed + [row])[j] == processed[j];
      }
    }
  }

  /** The loop of `vehicle_management` over the listed vehicles: classifies
      every vehicle and keeps three counters that together count every
      vehicle once. */
  method ClassifyVehicles(db: Db, vehicles: seq<Doc>) returns (page: VehiclePage)
    ensures |page.vehicles| == |vehicles|
    ensures forall i :: 0 <= i < |vehicles| ==> Classified(db, vehicles[i], page.vehicles[i])
    ensures page.pendingCount == Count(page.vehicles, IsPendingRow)
    ensures page.approvedCount == Count(page.vehicles, IsApprovedRow)
    ensures page.activeCount == Count(page.vehicles, IsActiveRow)
    ensures page.pendingCount + page.approvedCount + page.activeCount == |vehicles|
  {
    var processed: seq<Doc> := [];
    var pendingCount, approvedCount, activeCount := 0, 0, 0;
    for i := 0 to |vehicles|
      invariant |processed| == i
      invariant ClassifiedPrefix(db, vehicles, processed)
      invariant pendingCount == Count(processed, IsPendingRow)
      invariant approvedCount == Count(processed, IsApprovedRow)
      invariant activeCount == Count(processed, IsActiveRow)
      invariant pendingCount + approvedCount + activeCount == i
    {
      var row := ProcessVehicle(db, vehicles[i]);
      var online := DriverOnline(LinkedDriver(db, vehicles[i]));
      ClassifiedStatus(db, vehicles[i], row, online);
      if !IsApproved(vehicles[i]) {
        pendingCount := pendingCount + 1;
      } else {
        approvedCount := approvedCount + 1;
        if online {
          activeCount := activeCount + 1;
          approvedCount := approvedCount - 1;
        }
      }
      CountSnoc(processed, row, IsPendingRow);
      CountSnoc(processed, row, IsApprovedRow);
      CountSnoc(processed, row, IsActiveRow);
      ExtendClassified(db, vehicles, processed, row);
      processed := processed + [row];
    }
    page := VehiclePage(processed, pendingCount, approvedCount, activeCount);
  }

  /** `vehicle_management`: the classified vehicles of the `VehicleDetails`
      listing; an unreachable store gives an empty page with zero counters. */
  method VehicleManagement(db: Db) returns (page: VehiclePage)
    ensures |page.vehicles| == |ListRecords(db, VehiclesCollection)|
    ensures forall i :: 0 <= i < |page.vehicles| ==>
      Classified(db, ListRecords(db, VehiclesCollection)[i], page.vehicles[i])
    ensures page.pendingCount == Count(page.vehicles, IsPendingRow)
    ensures page.approvedCount == Count(page.vehicles, IsApprovedRow)
    ensures page.activeCount == Count(page.vehicles, IsActiveRow)
    ensures page.pendingCount + page.approvedCount + page.activeCount == |page.vehicles|
    ensures !Reachable(db, VehiclesCollection) ==> page == VehiclePage([], 0, 0, 0)
  {
    page := ClassifyVehicles(db, ListRecords(db, VehiclesCollection));
  }

  // ---------------------------------------------------------------------
  // AJAX update and delete endpoints

  /** An incoming request: its method and its JSON body, `None` when the
      body is not valid JSON. */
  datatype Request = Request(httpMethod: string, body: Option<Value>)

  datatype JsonReply = JsonReply(success: bool, message: Message)

  /** The service call an endpoint made, if any. */
  datatype ServiceCall = NoCall | UpdateCall(key: Value, fields: Doc) | DeleteCall(key: Value)

  datatype EndpointResult = EndpointResult(reply: JsonReply, db: Db, call: ServiceCall)

  datatype Entity = DriverEntity | CustomerEntity | VehicleEntity

  function Noun(e: Entity): string {
    match e
    case DriverEntity => "Driver"
    case CustomerEntity => "Customer"
    case VehicleEntity => "Vehicle"
  }

  function LowerNoun(e: Entity): string {
    match e
    case DriverEntity => "driver"
    case CustomerEntity => "customer"
    case VehicleEntity => "vehicle"
  }

  function IdField(e: Entity): string {
    LowerNoun(e) + "_id"
  }

  function CollectionOf(e: Entity): string {
    match e
    case DriverEntity => DriversCollection
    case CustomerEntity => CustomersCollection
    case VehicleEntity => VehiclesCollection
  }

  /** The body parsed to a dict, the only shape on which `data.get` works. */
  predicate DictBody(req: Request) {
    req.body.Some? && req.body.value.VMap?
  }

  /** `update_driver_status` / `update_vehicle_status`: writes
      `{'isApproved': status}` only for a POST whose id is truthy and whose
      status is present and not null; `false` is a valid status. */
  function UpdateStatusEndpoint(db: Db, req: Request, e: Entity): (r: EndpointResult)
    requires e != CustomerEntity
    ensures req.httpMethod != "POST" ==> r == EndpointResult(JsonReply(false, Text("Invalid request method")), db, NoCall)
    ensures r.call != NoCall <==>
      && req.httpMethod == "POST" && DictBody(req)
      && Truthy(Get(req.body.value.fields, IdField(e)))
      && Get(req.body.value.fields, "status") != VNull
    ensures r.call != NoCall ==>
      r.call == UpdateCall(Get(req.body.value.fields, IdField(e)), map["isApproved" := Get(req.body.value.fields, "status")])
    ensures r.call == NoCall ==> r.db == db && !r.reply.success
    ensures r.reply.success <==> r.call != NoCall && RecordById(db, CollectionOf(e), r.call.key).Some?
    ensures req.httpMethod == "POST" && DictBody(req) && r.call == NoCall ==>
      r.reply == JsonReply(false, Text("Missing required fields"))
  {
    if req.httpMethod != "POST" then EndpointResult(JsonReply(false, Text("Invalid request method")), db, NoCall)
    else if !DictBody(req) then EndpointResult(JsonReply(false, Raised("")), db, NoCall)
    else
      var data := req.body.value.fields;
      var id := Get(data, IdField(e));
      var status := Get(data, "status");
      if !Truthy(id) || status == VNull then
        EndpointResult(JsonReply(false, Text("Missing required fields")), db, NoCall)
      else
        var fields := map["isApproved" := status];
        var w := UpdateRecord(db, CollectionOf(e), id, fields);
        var message :=
          if w.ok then Noun(e) + " status updated successfully"
          else "Failed to update " + LowerNoun(e) + " status";
        EndpointResult(JsonReply(w.ok, Text(message)), w.db, UpdateCall(id, fields))
  }

  /** `delete_driver_ajax` / `delete_customer_ajax` / `delete_vehicle`:
      deletes only for a POST whose id is truthy. */
  function DeleteEndpoint(db: Db, req: Request, e: Entity): (r: EndpointResult)
    ensures req.httpMethod != "POST" ==> r == EndpointResult(JsonReply(false, Text("Invalid request method")), db, NoCall)
    ensures r.call != NoCall <==>
      req.httpMethod == "POST" && DictBody(req) && Truthy(Get(req.body.value.fields, IdField(e)))
    ensures r.call != NoCall ==> r.call == DeleteCall(Get(req.body.value.fields, IdField(e)))
    ensures r.call == NoCall ==> r.db == db && !r.reply.success
    ensures r.reply.success <==>
      r.call != NoCall && Reachable(db, CollectionOf(e)) && r.call.key.VStr? && ValidKey(r.call.key.s)
    ensures req.httpMethod == "POST" && DictBody(req) && r.call == NoCall ==>
      r.reply == JsonReply(false, Text(Noun(e) + " ID is required"))
  {
    if req.httpMethod != "POST" then EndpointResult(JsonReply(false, Text("Invalid request method")), db, NoCall)
    else if !DictBody(req) then EndpointResult(JsonReply(false, Raised("")), db, NoCall)
    else
      var id := Get(req.body.value.fields, IdField(e));
      if !Truthy(id) then EndpointResult(JsonReply(false, Text(Noun(e) + " ID is required")), db, NoCall)
      else
        var w := DeleteRecord(db, CollectionOf(e), id);
        var message :=
          if w.ok then Noun(e) + " deleted successfully"
          else "Failed to delete " + LowerNoun(e);
        EndpointResult(JsonReply(w.ok, Text(message)), w.db, DeleteCall(id))
  }
}
